=== FILE: README.md ===
# Double$cash client core in Dafny

Double$cash is a single-page web client for an investment and referral
scheme. Users buy packages of 50 to 1000 USDT. A package is meant to double
over a fixed term. Users collect a referral bonus for every account created
through their invitation link. They withdraw bonus and yield to a wallet
protected by a six-digit PIN. The client keeps all of this in a hosted
database, and a simulated "blockchain monitor" confirms pending payments.

This project models the decisions that client makes, one module per
component:

- **Validation**: which form inputs a handler accepts and which message it
  shows otherwise: purchase range, withdrawal limits, PIN format, login and
  sign-up fields, avatar files, usernames and wallet addresses.
- **What is written**: the record a handler sends to the database, with
  every backend answer given as a parameter.
- **What is shown**: toasts, status badges, countdown text, the display
  name and avatar letter, and which screen the page renders.
- **Derived data**: yield grouping per package, referral totals, joins of
  referrals with profiles, referral links and the `?ref=` parameter that
  reads them back.

Pure decisions are functions whose contracts state the component's rule.
Lemmas relate them to their partners:

- a parser that reads the countdown text back;
- the badge read back to its status;
- a trim that is idempotent;
- a link that the query-string lookup inverts;
- the two withdrawal forms, which must agree.

Component state (React `useState`) is a class per component. Each event
handler is a method. Its `ensures` give every field's new value in terms of
the old state and of the backend answers it received.

Modules:

| module | models |
|---|---|
| `Common` | shared types: optional values, `parseFloat` results with NaN, backend answers, toasts; trimming, splitting, decimal rendering |
| `Countdown` | `src/components/CountdownTimer.tsx` |
| `MyPackages` | `src/components/MyPackagesSection.tsx` |
| `FinancialSections` | `src/components/FinancialSections.tsx` |
| `UserDashboard` | `src/components/UserDashboard.tsx` |
| `PackagePurchase` | `src/components/PackagePurchase.tsx` |
| `PackageSection` | `src/components/PackageSection.tsx` |
| `WithdrawalPin` | `src/components/WithdrawalPinSection.tsx` |
| `WithdrawalData` | `src/components/WithdrawalDataSection.tsx` |
| `Referrals` | `src/components/ReferralsSection.tsx` |
| `AuthPage` | `src/components/AuthPage.tsx` |
| `AuthSection` | `src/components/AuthSection.tsx` |
| `Profile` | `src/components/ProfileSection.tsx` |
| `Header` | `src/components/Header.tsx` |
| `BlockchainMonitor` | `src/hooks/useBlockchainMonitor.tsx` |
| `IndexPage` | `src/pages/Index.tsx` |

Conventions used throughout:

- Every backend call is a parameter holding its answer:
  - `WriteResult` is success or an error code and message;
  - `Fetch<T>` is the rows read or an error code and message;
  - the signed-in user is an `Option`.
- `parseFloat` of a field is a parameter of type `Number` (`Num(x)` or
  `NaN`), next to the raw text. Every comparison with NaN is false, so NaN
  slips past "less than" and "greater than" checks exactly as it does in
  the client.
- Instants are integer milliseconds. The current time, random draws and
  random hash text are parameters.
- A toast whose description interpolates a JavaScript number carries `""`
  as its description. The rendering of numbers is not modelled.

Behaviour worth knowing, modelled as written:

- The countdown card counts 21 days from purchase. The package list counts
  20 days from activation, and the package cards advertise 20 days.
- The countdown's last second before expiry shows `0d 00h 00m 00s`. Only
  the end instant itself counts as expired.
- The package list computes hours and minutes as
  `Math.floor((diff / a) % b)`. For positive integer milliseconds this
  equals integer division and then remainder, which is how it is written here
  (`MyPackages.ClockArithmetic`).
- The profile save rejects a blank username but stores the untrimmed text.
- A transaction whose raw type is already a label (say "Saque de Bônus")
  shows the same text as a bonus withdrawal. `TransactionTypeLabel` states
  the inverse only for the two withdrawal types.
- The monitor's update is not conditioned on the package still being
  pending. A package picked by two checks is activated twice
  (`BlockchainMonitor.ActivatedTwice`).
- The home page bumps a counter on every sign-in and profile update, and
  uses it as the header's key. `IndexPage.Shell` keeps it as
  `profileUpdated`.

## Model

| member | source | states |
|---|---|---|
| Common.Trim | src/components/WithdrawalDataSection.tsx:47-64 | `String.prototype.trim`: the result has no surrounding whitespace, is a slice of the input starting after its leading whitespace, and only whitespace follows it |
| Common.TrimIdempotent | src/components/WithdrawalDataSection.tsx:47-64 | trimming a trimmed wallet address changes nothing |
| Common.TrimEmptyIffBlank | src/components/ProfileSection.tsx:245-252 | the trim is empty exactly when every character is whitespace, which is the blank-username test |
| Common.BeforeFirst | src/components/Header.tsx:44 | `split(c)[0]`: a prefix of the text without `c`, followed by `c` when shorter, the whole text when `c` is absent |
| Common.BeforeFirstOfPrefix | src/components/ProfileSection.tsx:194 | the text before the first `c` of `a + b` is `a` when `a` lacks `c` and `b` starts with it |
| Common.AfterLast | src/components/ProfileSection.tsx:193 | `split(c).pop()`: a suffix of the text without `c`, preceded by `c` when shorter |
| Common.PaymentHash | src/components/PackagePurchase.tsx:38 | a simulated payment hash starts with "0x" and is followed by exactly the random text |
| Common.Decimal | src/components/CountdownTimer.tsx:33 | `n.toString()`: at least one digit, no leading zero, one digit exactly below 10, two digits from 10 to 99 |
| Common.DecimalRoundTrip | src/components/CountdownTimer.tsx:33 | reading a rendered number's digits back gives the number |
| Common.Pad2 | src/components/CountdownTimer.tsx:33 | `padStart(2, '0')`: all digits, exactly two for values below 100, reading back the value |
| Countdown.Split | src/components/CountdownTimer.tsx:20-31 | the difference is expired exactly when not positive; a live split has hours below 24 and minutes and seconds below 60, and its whole seconds are the difference rounded down |
| Countdown.SplitReconstructs | src/components/CountdownTimer.tsx:28-31 | the four divisions give fields in clock range that rebuild the difference to within one second |
| Countdown.SplitUnique | src/components/CountdownTimer.tsx:28-31 | any in-range days/hours/minutes/seconds within one second of the difference are exactly the split |
| Countdown.Remaining | src/components/CountdownTimer.tsx:17-26 | the countdown to purchase plus 21 days: expired exactly from the end instant on, else the time left to the second |
| Countdown.RemainingNeverIncreases | src/components/CountdownTimer.tsx:17-31 | a later tick never shows more time left |
| Countdown.TextRoundTrip | src/components/CountdownTimer.tsx:33 | the rendered "Xd HHh MMm SSs" text (or the released text) parses back to the same time left |
| Countdown.ParseLayout | src/components/CountdownTimer.tsx:33 | any text laid out as digits, 'd ', two digits, 'h ', two digits, 'm ', two digits, 's' parses to those values |
| Countdown.CountdownTimer.constructor | src/components/CountdownTimer.tsx:9-11 | the timer starts with no text and not expired |
| Countdown.CountdownTimer.Tick | src/components/CountdownTimer.tsx:13-35 | without a package nothing changes; otherwise expiry and text follow `Remaining`, and expired shows the released text |
| MyPackages.TimeRemaining | src/components/MyPackagesSection.tsx:214-229 | no countdown without an activation date; released exactly from activation plus 20 days on; otherwise hours below 24, minutes below 60, within a minute of the time left |
| MyPackages.ClockArithmetic | src/components/MyPackagesSection.tsx:224-226 | the day, hour-mod-24 and minute-mod-60 figures rebuild the difference to within a minute |
| MyPackages.TextHasNoSeconds | src/components/MyPackagesSection.tsx:228 | the list's countdown ends in 'm' and never shows seconds |
| MyPackages.GroupYields | src/components/MyPackagesSection.tsx:120-130 | one group per package id present, each holding that package's yields in input order |
| MyPackages.GroupNonEmptyIffPresent | src/components/MyPackagesSection.tsx:121-130 | a package's group is non-empty exactly when the package has a yield row |
| MyPackages.GroupKeepsOrder | src/components/MyPackagesSection.tsx:109-130 | rows read newest first give groups that are newest first |
| MyPackages.GroupSizesSum | src/components/MyPackagesSection.tsx:120-130 | the group sizes add up to the number of rows: no yield is lost or duplicated |
| MyPackages.StatusBadge | src/components/MyPackagesSection.tsx:173-199 | "Desconhecido" exactly for unknown statuses; a known status's badge reads back to it |
| MyPackages.StatusDescription | src/components/MyPackagesSection.tsx:201-212 | the fallback text exactly for unknown statuses; a known status's text reads back to it |
| MyPackages.DeleteById | src/components/MyPackagesSection.tsx:138-145 | the delete removes every row with the id and keeps every other row |
| MyPackages.DeleteCount | src/components/MyPackagesSection.tsx:142-145 | the table shrinks by exactly the number of rows with that id |
| MyPackages.DeleteThroughButton | src/components/MyPackagesSection.tsx:294-299 | deleting a pending package through its button removes exactly that one row |
| MyPackages.MyPackagesSection.constructor | src/components/MyPackagesSection.tsx:28-31 | empty list, no yields, loading, nothing being deleted |
| MyPackages.MyPackagesSection.FetchPackages | src/components/MyPackagesSection.tsx:76-102 | loading ends; the list becomes the rows read when signed in and the read succeeds, else stays |
| MyPackages.MyPackagesSection.FetchDailyYields | src/components/MyPackagesSection.tsx:104-136 | on a successful read the yield map is exactly the grouping of the rows; otherwise unchanged |
| MyPackages.MyPackagesSection.HandleDeletePackage | src/components/MyPackagesSection.tsx:138-171 | the outcome follows the backend answer, the deleting mark is cleared on every path, and the list and yields are left for the refetch |
| FinancialSections.TransactionTypeLabel | src/components/FinancialSections.tsx:77-86 | only the two withdrawal types are relabelled, and their labels read back to the type |
| FinancialSections.TransactionStatusBadge | src/components/FinancialSections.tsx:58-69 | "Desconhecido" exactly for unknown statuses; known badges read back to their status |
| FinancialSections.HashPreview | src/components/FinancialSections.tsx:126 | the preview is the first ten characters of the wallet hash, or all of a shorter one |
| FinancialSections.BonusWithdrawalError | src/components/FinancialSections.tsx:156-184 | accepted exactly for a filled amount in [10, 500] and a wallet; the minimum, maximum and wallet messages in their cases; NaN passes both bounds |
| FinancialSections.YieldWithdrawalError | src/components/FinancialSections.tsx:229-248 | accepted exactly for a filled positive amount and a wallet; NaN passes the positivity check |
| FinancialSections.YieldHasNoUpperBound | src/components/FinancialSections.tsx:156-248 | an amount above 500 is refused as a bonus withdrawal but accepted as a yield withdrawal |
| FinancialSections.YieldSection.constructor | src/components/FinancialSections.tsx:149-154 | all four fields empty, not loading |
| FinancialSections.YieldSection.HandleBonusWithdrawal | src/components/FinancialSections.tsx:156-227 | invalid input shows its message and writes nothing; a valid one writes the pending bonus withdrawal, clears the form on success and keeps it on error; the yield form is untouched |
| FinancialSections.YieldSection.HandleYieldWithdrawal | src/components/FinancialSections.tsx:229-291 | the same for the yield form, leaving the bonus form untouched |
| FinancialSections.ExtractSection.constructor | src/components/FinancialSections.tsx:24-26 | no transactions, loading |
| FinancialSections.ExtractSection.FetchTransactions | src/components/FinancialSections.tsx:34-56 | loading ends; the statement becomes the rows read on success, else stays |
| UserDashboard.BonusWithdrawError | src/components/UserDashboard.tsx:70-99 | accepted exactly for a filled amount in [10, 500] and a wallet, with the minimum and wallet messages in their cases |
| UserDashboard.BonusFormsAgree | src/components/UserDashboard.tsx:74-99 | the dashboard's bonus check and the financial section's accept the same inputs and give the same message |
| UserDashboard.YieldWithdrawError | src/components/UserDashboard.tsx:135-164 | accepted exactly for a filled positive amount, a wallet and an owned package; an empty or non-positive amount gets the amount message first, the wallet message exactly when only the wallet is missing after that, the no-package message exactly when only the package is missing |
| UserDashboard.YieldFormsAgree | src/components/UserDashboard.tsx:139-164 | with a package, the dashboard's yield check accepts what the financial section's accepts |
| UserDashboard.DashboardReferralLink | src/components/UserDashboard.tsx:42-45 | a link exists exactly for a non-empty username, and reading the link back gives that username |
| UserDashboard.Dashboard.constructor | src/components/UserDashboard.tsx:17-21 | empty forms and no link |
| UserDashboard.Dashboard.GenerateReferralLink | src/components/UserDashboard.tsx:30-52 | the link becomes the generated one when there is one, else stays; the forms are untouched |
| UserDashboard.Dashboard.CopyReferralLink | src/components/UserDashboard.tsx:54-68 | copies the link exactly when there is one, with the matching toast |
| UserDashboard.Dashboard.HandleBonusWithdraw | src/components/UserDashboard.tsx:70-133 | invalid input shows its message and writes nothing; a valid one with a user writes the pending bonus withdrawal and clears the form only on success |
| UserDashboard.Dashboard.HandleYieldWithdraw | src/components/UserDashboard.tsx:135-173 | invalid input shows its message; a valid request shows the confirmation and clears the yield form |
| PackagePurchase.PurchaseError | src/components/PackagePurchase.tsx:19-28 | accepted exactly for a filled amount in [50, 1000]; NaN passes both bounds |
| PackagePurchase.EstimatedReturn | src/components/PackagePurchase.tsx:87 | nothing for an empty field, else twice the parsed amount (NaN stays NaN) |
| PackagePurchase.PurchaseForm.constructor | src/components/PackagePurchase.tsx:13-14 | empty amount, not loading |
| PackagePurchase.PurchaseForm.HandlePurchase | src/components/PackagePurchase.tsx:16-50 | a rejected amount shows the range message and hands nothing on; an accepted one hands on the parsed amount, purchase instant and "0x" hash, and clears the field |
| PackagePurchase.PurchaseForm.CopyHash | src/components/PackagePurchase.tsx:52-59 | copies the printed deposit address and confirms it |
| PackageSection.CatalogueConsistent | src/components/PackageSection.tsx:10-16 | the catalogue amounts are distinct, and each lies in [50, 1000] and passes the purchase form's check |
| PackageSection.CardFigures | src/components/PackageSection.tsx:119-133 | the total return is the amount plus the profit, spread evenly over 20 days |
| PackageSection.CardReturnMatchesEstimate | src/components/PackageSection.tsx:119-122 | a card's total return equals the purchase form's estimate for that amount |
| PackageSection.PackageSectionPage.constructor | src/components/PackageSection.tsx:19 | no package is loading |
| PackageSection.PackageSectionPage.HandlePurchase | src/components/PackageSection.tsx:37-82 | the loading amount is cleared after the call, so no card's button (disabled while its own amount loads, `ButtonDisabled`) stays disabled; without a user nothing is written; with one a pending package of that amount is written and the toast follows the answer |
| PackageSection.PackageSectionPage.CopyToClipboard | src/components/PackageSection.tsx:21-35 | copies the text exactly when the clipboard works, with the success or failure toast |
| WithdrawalPin.DigitsOnly | src/components/WithdrawalPinSection.tsx:149 | `replace(/\D/g, '')`: only digits remain, never longer than the input |
| WithdrawalPin.DigitsOnlyOfDigits | src/components/WithdrawalPinSection.tsx:149 | a string of digits is left as it is |
| WithdrawalPin.DigitsOnlySplits | src/components/WithdrawalPinSection.tsx:149 | the filter distributes over concatenation |
| WithdrawalPin.DigitsOnlyDropsNonDigits | src/components/WithdrawalPinSection.tsx:149 | text without digits is removed entirely; with the two lemmas above this pins the filter to "the input's digits, in order" on every input |
| WithdrawalPin.SanitizePin | src/components/WithdrawalPinSection.tsx:149 | at most six digits: the first six of the input's digits, or all of them when fewer |
| WithdrawalPin.SanitizeIdempotent | src/components/WithdrawalPinSection.tsx:149 | filtering a filtered entry changes nothing |
| WithdrawalPin.PinError | src/components/WithdrawalPinSection.tsx:47-72 | accepted exactly for six digits confirmed identically; the fill, format and mismatch messages in their cases |
| WithdrawalPin.FilteredEntriesAccepted | src/components/WithdrawalPinSection.tsx:47-72 | two entries with at least six digits that filter to the same PIN are accepted |
| WithdrawalPin.SavedMessage | src/components/WithdrawalPinSection.tsx:98 | "updated" exactly when a PIN existed, "created" otherwise |
| WithdrawalPin.PinForm.constructor | src/components/WithdrawalPinSection.tsx:12-16 | empty entries, no PIN known, checking |
| WithdrawalPin.PinForm.CheckExistingPin | src/components/WithdrawalPinSection.tsx:22-44 | checking ends; a PIN is known exactly when the read finds a non-empty one |
| WithdrawalPin.PinForm.ChangePin | src/components/WithdrawalPinSection.tsx:149 | the PIN field holds the filtered entry |
| WithdrawalPin.PinForm.ChangeConfirmPin | src/components/WithdrawalPinSection.tsx:162 | the confirmation field holds the filtered entry |
| WithdrawalPin.PinForm.HandleSave | src/components/WithdrawalPinSection.tsx:46-113 | an invalid PIN shows its message and writes nothing; a valid one writes the PIN for the user, and on success clears both fields and records that a PIN exists |
| WithdrawalData.WalletToStore | src/components/WithdrawalDataSection.tsx:47-67 | nothing exactly for a blank address, else exactly `Trim` of it, which is non-empty; a trimmed address is stored unchanged |
| WithdrawalData.StoreIdempotent | src/components/WithdrawalDataSection.tsx:47-64 | storing the stored form again gives the same value |
| WithdrawalData.WalletForm.constructor | src/components/WithdrawalDataSection.tsx:12-14 | empty address, loading the stored one |
| WithdrawalData.WalletForm.FetchWithdrawalData | src/components/WithdrawalDataSection.tsx:20-44 | loading ends; the field shows the stored address when one is read |
| WithdrawalData.WalletForm.HandleSave | src/components/WithdrawalDataSection.tsx:46-91 | a blank address is refused; otherwise the trimmed address is written for the user, and the toast follows the answer |
| Referrals.TempUsername | src/components/ReferralsSection.tsx:59 | "user_" followed by a prefix of the user id of length eight, or the whole id when shorter |
| Referrals.PlanLink | src/components/ReferralsSection.tsx:46-83 | an existing username is used as is; the temporary name is upserted exactly when the read found none and did not fail; there is a link username exactly when one exists or the upsert succeeded, and after a successful upsert it is the temporary name `TempUsername(user.id)` |
| Referrals.LinkExample | src/components/ReferralsSection.tsx:80 | the link for a concrete origin and username |
| Referrals.FindProfile | src/components/ReferralsSection.tsx:142 | `find`: none exactly when no profile has the id, else the first profile with it |
| Referrals.JoinProfiles | src/components/ReferralsSection.tsx:141-147 | one entry per referral in order, carrying its referred profile exactly when one exists |
| Referrals.TotalBonusAppend | src/components/ReferralsSection.tsx:154 | the total of two lists put together is the sum of their totals |
| Referrals.TotalBonusBounds | src/components/ReferralsSection.tsx:154 | with non-negative bonuses the total is at least any single bonus |
| Referrals.TotalBonusNonNegative | src/components/ReferralsSection.tsx:154 | with non-negative bonuses the total is non-negative |
| Referrals.ReferralsPage.constructor | src/components/ReferralsSection.tsx:23-27 | no referrals, no link, zero total, loading |
| Referrals.ReferralsPage.GenerateReferralLink | src/components/ReferralsSection.tsx:38-87 | performs the planned upsert and sets the link from the planned username; other state untouched |
| Referrals.ReferralsPage.FetchReferrals | src/components/ReferralsSection.tsx:89-172 | loading and refreshing end; on a successful read the list is the join with the profiles found and the total is the sum of bonuses; a failed read keeps the old data and shows the error |
| Referrals.ReferralsPage.CopyReferralLink | src/components/ReferralsSection.tsx:174-188 | copies the link exactly when the clipboard works, with the success or failure toast |
| AuthPage.ToggleMode | src/components/AuthPage.tsx:287 | the toggle always switches the mode |
| AuthPage.ToggleTwice | src/components/AuthPage.tsx:287 | toggling twice restores the mode |
| AuthPage.LoginError | src/components/AuthPage.tsx:26-33 | accepted exactly when email and password are filled |
| AuthPage.LoginFailureMessage | src/components/AuthPage.tsx:42-52 | the bad-credentials message exactly for the bad-credentials error, the generic one otherwise |
| AuthPage.RegisterError | src/components/AuthPage.tsx:74-99 | accepted exactly when all fields are filled, the passwords match and the password has at least six characters |
| AuthPage.SignUpFailureMessage | src/components/AuthPage.tsx:117-132 | "already registered" errors get their own message, others show the backend's text or a generic one |
| AuthPage.RowsNamed | src/components/AuthPage.tsx:147-151 | exactly the profiles whose username is the code |
| AuthPage.RowsNamedSplits | src/components/AuthPage.tsx:147-151 | the lookup distributes over concatenation, so each named row is found once per occurrence |
| AuthPage.RowsNamedNone | src/components/AuthPage.tsx:147-151 | no row carries the username, no row is found |
| AuthPage.RowsNamedOnly | src/components/AuthPage.tsx:147-151 | when exactly one row carries the username, the lookup finds exactly that row |
| AuthPage.RowsNamedSingle | src/components/AuthPage.tsx:147-151 | when the lookup finds exactly one row, that row is the only one carrying the username |
| AuthPage.ReferrerId | src/components/AuthPage.tsx:147-153 | `.single()` then `referrer?.id`: a referrer exactly when one row carries the username and its id is non-empty, and then that row's id |
| AuthPage.ProcessReferral | src/components/AuthPage.tsx:138-180 | a referral is inserted exactly when a code was stored and names a referrer; it links that referrer to the new user with the fixed bonus; the code is removed exactly when the insert succeeds |
| AuthPage.AuthForm.constructor | src/components/AuthPage.tsx:15-22 | the given mode, empty fields, not loading |
| AuthPage.AuthForm.HandleToggleMode | src/components/AuthPage.tsx:287 | the mode switches and the fields stay |
| AuthPage.AuthForm.HandleLogin | src/components/AuthPage.tsx:24-70 | unfilled fields are refused; otherwise loading ends and the user signs in or sees the failure message |
| AuthPage.AuthForm.HandleRegister | src/components/AuthPage.tsx:72-199 | invalid fields are refused; a failed sign-up shows its message; a new account processes the stored referral and signs the user in |
| AuthSection.SubmitError | src/components/AuthSection.tsx:20-36 | accepted exactly for filled fields and an email containing '@', with the fill and invalid-email messages in their cases |
| AuthSection.SignInCard.constructor | src/components/AuthSection.tsx:13-15 | empty fields, not loading |
| AuthSection.SignInCard.HandleSubmit | src/components/AuthSection.tsx:17-50 | refused input shows its message; accepted input signs in with the email and confirms |
| Profile.OrElse | src/components/ProfileSection.tsx:68-72 | `a \|\| b` on nullable text: `a` unless null or empty |
| Profile.FormFrom | src/components/ProfileSection.tsx:53-92 | every field from the row read (null or empty giving ""), with the account email when the row has none; all empty but the email without a row |
| Profile.UsernameError | src/components/ProfileSection.tsx:245-252 | accepted exactly when the username has a non-whitespace character |
| Profile.SaveErrorMessage | src/components/ProfileSection.tsx:271-287 | the "username taken" message exactly for the unique-violation code, else the backend message after a prefix |
| Profile.AvatarFileError | src/components/ProfileSection.tsx:139-168 | accepted exactly for an image of at most 5 MB, with the no-file, not-image and too-large messages in their cases |
| Profile.FileExtension | src/components/ProfileSection.tsx:193 | the text after the last '.' of the file name, or the whole name |
| Profile.ExtensionOfPlainName | src/components/ProfileSection.tsx:193 | a name without '.' is its own extension |
| Profile.ObjectNameFolder | src/components/ProfileSection.tsx:194 | the stored object lies in the user's own folder |
| Profile.ObjectNameExtension | src/components/ProfileSection.tsx:193-194 | the stored object keeps the uploaded file's extension |
| Profile.BucketReady | src/components/ProfileSection.tsx:98-133 | ready when the listing shows the bucket, or when it is missing and creating it succeeds; never after a failed listing |
| Profile.AvatarSource | src/components/ProfileSection.tsx:320 | the form's avatar, else the stored one, else none |
| Profile.AvatarFallback | src/components/ProfileSection.tsx:322 | always one character: the first of the form's name, else of the stored name, else of the form's username, else 'U' |
| Profile.ProfilePage.constructor | src/components/ProfileSection.tsx:25-35 | no profile, empty form, not editing, loading or uploading |
| Profile.ProfilePage.FetchProfile | src/components/ProfileSection.tsx:41-96 | the form becomes `FormFrom` of the row read, or of no row after a failed read |
| Profile.ProfilePage.HandleSave | src/components/ProfileSection.tsx:244-310 | a blank username is refused; otherwise the form is written and edit mode ends exactly when the write succeeds; failures show `SaveErrorMessage` |
| Profile.ProfilePage.StartEditing | src/components/ProfileSection.tsx:400 | edit mode starts and nothing else changes |
| Profile.ProfilePage.CancelEditing | src/components/ProfileSection.tsx:415-418 | edit mode ends and the profile and form are reloaded as `FetchProfile` does, dropping the edits |
| Profile.ProfilePage.EditField | src/components/ProfileSection.tsx:330-370 | while editing, the typed value replaces one field and the others stay; disabled inputs change nothing |
| Profile.ProfilePage.UploadAvatar | src/components/ProfileSection.tsx:135-242 | invalid files, a missing user and an unusable bucket stop before uploading; otherwise the file goes to the user's folder, and only a successful upload with a public URL changes the form's avatar; an upload error toasts its message, a successful upload toasts success exactly when a public URL came back and nothing otherwise; uploading ends on every path |
| Header.FallbackName | src/components/Header.tsx:43-46 | the part of the email before the first '@', or the whole address without one |
| Header.FallbackProfile | src/components/Header.tsx:56-59 | after a failed read: the fallback name and no avatar |
| Header.DisplayName | src/components/Header.tsx:78 | the profile name when non-empty, else the email |
| Header.FailedReadShowsLocalPart | src/components/Header.tsx:43-78 | after a failed read the bar shows the part before '@', or the whole email when that part is empty |
| Header.UpperAscii | src/components/Header.tsx:84 | lower-case ASCII letters become upper case; other characters stay |
| Header.AvatarInitial | src/components/Header.tsx:84 | always one character: the name's first, else the email's first upper-cased, else 'U' |
| Header.InitialStartsDisplayName | src/components/Header.tsx:78-84 | the avatar letter is the first character of the shown name, possibly upper-cased |
| Header.HeaderBar.constructor | src/components/Header.tsx:16-19 | no profile loaded |
| Header.HeaderBar.OnLoginState | src/components/Header.tsx:21-25 | the profile is read only while signed in |
| Header.HeaderBar.FetchUserProfile | src/components/Header.tsx:27-64 | without a user nothing changes; a failed read gives the fallback profile; a successful one the row |
| Header.FetchedProfile | src/components/Header.tsx:27-64 | signed in, a profile is always set, without an avatar after a failed read |
| BlockchainMonitor.PendingFor | src/hooks/useBlockchainMonitor.tsx:22-26 | exactly the user's pending packages from the table |
| BlockchainMonitor.PickedArePending | src/hooks/useBlockchainMonitor.tsx:28-44 | every id scheduled for confirmation is one of the packages examined, and there are no more of them than packages |
| BlockchainMonitor.Activate | src/hooks/useBlockchainMonitor.tsx:52-59 | rows with the id become active with the instant and hash, their other fields unchanged; all other rows unchanged |
| BlockchainMonitor.ActivatedTwice | src/hooks/useBlockchainMonitor.tsx:52-59 | a second confirmation of the same package overwrites the first |
| BlockchainMonitor.ActivatedLeavesPending | src/hooks/useBlockchainMonitor.tsx:52-59 | an activated package is no longer pending |
| BlockchainMonitor.Confirm | src/hooks/useBlockchainMonitor.tsx:45-70 | a successful update is exactly `Activate` at the given instant with a "0x" hash, and shows the confirmation; a failed one changes nothing and shows nothing |
| BlockchainMonitor.Monitor.constructor | src/hooks/useBlockchainMonitor.tsx:15 | not monitoring |
| BlockchainMonitor.Monitor.StartMonitoring | src/hooks/useBlockchainMonitor.tsx:74-89 | starts exactly when not already monitoring; monitoring afterwards |
| BlockchainMonitor.Monitor.Cleanup | src/hooks/useBlockchainMonitor.tsx:85-88 | monitoring stops |
| BlockchainMonitor.Monitor.CheckPendingPackages | src/hooks/useBlockchainMonitor.tsx:17-44 | examines the user's pending packages and schedules those whose draw succeeds, in order; nothing without a user or after a failed read |
| IndexPage.RenderMainContent | src/pages/Index.tsx:119-142 | a known section renders its own content, any other the dashboard |
| IndexPage.RenderSectionName | src/pages/Index.tsx:119-142 | every content's section name is known and renders that content back |
| IndexPage.QueryParam | src/pages/Index.tsx:55-56 | a parameter value found in a query never contains '&' |
| IndexPage.SearchParam | src/pages/Index.tsx:55-56 | the same for a search string with its leading '?' |
| IndexPage.PairLookup | src/pages/Index.tsx:55-56 | a query starting with `key=value&` gives `value` for `key` |
| IndexPage.LastPairLookup | src/pages/Index.tsx:55-56 | a single `key=value` pair gives `value` for `key` and nothing for other names |
| IndexPage.ReferralLinkRoundTrip | src/pages/Index.tsx:54-58 | the `ref` parameter of an invitation link's search string is the inviting username |
| IndexPage.SessionEmail | src/pages/Index.tsx:43 | the session's email, or empty when there is none |
| IndexPage.Shell.Displayed | src/pages/Index.tsx:144-159 | the sign-in screen whenever it is open, else the home page when signed out, else the app with the chosen section |
| IndexPage.Shell.constructor | src/pages/Index.tsx:20-27 | signed out on the dashboard section, showing the home page |
| IndexPage.Shell.CheckSession | src/pages/Index.tsx:30-36 | an existing session signs the page in with its email |
| IndexPage.Shell.OnAuthStateChange | src/pages/Index.tsx:40-51 | a session signs in, closes the sign-in screen and refreshes the header; no session signs out |
| IndexPage.Shell.CheckReferralParam | src/pages/Index.tsx:54-71 | a `ref` parameter is stored and opens the sign-up screen; otherwise nothing changes |
| IndexPage.Shell.HandleLogin | src/pages/Index.tsx:78-82 | signed in with the email, showing the app |
| IndexPage.Shell.HandleLogout | src/pages/Index.tsx:84-90 | signed out, back to the dashboard section, showing the home page |
| IndexPage.Shell.HandlePackagePurchase | src/pages/Index.tsx:92-94 | the purchased package is kept for the countdown |
| IndexPage.Shell.HandleSectionChange | src/pages/Index.tsx:173 | the chosen section becomes active |
| IndexPage.Shell.HandleProfileClick | src/pages/Index.tsx:96-98 | the profile section becomes active and is shown when signed in |
| IndexPage.Shell.HandleProfileUpdate | src/pages/Index.tsx:100-103 | the header key is bumped |
| IndexPage.Shell.HandleFinanceToggle | src/pages/Index.tsx:105-107 | the finance menu flips |
| IndexPage.Shell.OpenAuth | src/pages/Index.tsx:109-117 | the sign-in screen opens in the requested mode |

## Left out

- Floating point: amounts are exact reals. `toFixed`, JavaScript number
  rendering in toasts and currency formatting are not modelled. Toast
  descriptions that interpolate a number are empty.
- `parseFloat` itself: the parsed value is a parameter beside the raw text.
- Characters are Dafny `char`s, not UTF-16 code units. Header upper-casing
  covers ASCII letters only.
- Timers: the countdown's one-second interval, the monitor's polling
  interval and its confirmation delay are not modelled. Each tick, check
  and confirmation is a separate call with the current time as a
  parameter.
- Randomness: the monitor's draws and every random hash text are
  parameters.
- The hosted database, authentication and storage calls: their answers
  are parameters. `updated_at` stamps, the realtime subscription and the
  sign-out call itself are not modelled.
- Browser services: `localStorage` (the stored referral code is returned),
  the clipboard (a success flag), `window.location`, `history.replaceState`
  and locale date formatting.
- Thrown exceptions and their catch-all "unexpected error" toasts, and all
  console logging.
- `Profile.ProfilePage.UploadAvatar`: the source updates the avatar on a
  form object captured before the upload, which may overwrite edits made
  meanwhile. The model updates the current form.
- `MyPackages.TimeRemaining`: an activation date that does not parse (NaN
  arithmetic) is not modelled. The date is given as milliseconds next to
  its text.
- `IndexPage.QueryParam`: `URLSearchParams` percent-decoding and '+' as
  space are not modelled, so the lookup is exact on the raw text.
- `BlockchainMonitor.Confirm`: the confirmation toast's description, which
  interpolates the amount, is empty.
- Presentational components (`DashboardStats`, `Footer`, `HomePage`,
  `Sidebar`, `TradingBackground`) and the `useUserStats` hook are not part
  of this model.

=== FILE: auth_page.dfy ===
/** The sign-in and sign-up page (src/components/AuthPage.tsx): the checks
    before each request, how backend errors become messages, the referral
    recorded for a new account, and the login/register switch. */
module AuthPage {
  import opened Common

  const FillMessage: string := "Por favor, preencha todos os campos."
  const BadCredentialsError: string := "Invalid login credentials"
  const BadCredentialsMessage: string := "Email ou senha incorretos."
  const LoginFailedMessage: string := "Erro ao fazer login. Tente novamente."
  const FillRequiredMessage: string := "Por favor, preencha todos os campos obrigatórios."
  const MismatchMessage: string := "As senhas não coincidem."
  const ShortPasswordMessage: string := "A senha deve ter pelo menos 6 caracteres."
  const AlreadyRegistered: string := "already registered"
  const AlreadyRegisteredMessage: string := "Este email já está cadastrado. Tente fazer login."
  const SignUpFailedMessage: string := "Erro ao criar conta. Tente novamente."
  const ReferralBonus: real := 10.0
  const MinPasswordLength: nat := 6

  // ---------------------------------------------------------------------
  // Mode

  datatype AuthMode = Login | Register

  /** The link under the form. */
  function ToggleMode(mode: AuthMode): (toggled: AuthMode)
    ensures toggled != mode
  {
    if mode == Login then Register else Login
  }

  /** Switching twice is back where it started. */
  lemma ToggleTwice(mode: AuthMode)
    ensures ToggleMode(ToggleMode(mode)) == mode
  {
  }

  // ---------------------------------------------------------------------
  // Sign-in

  /** `handleLogin`'s one check. */
  function LoginError(email: string, password: string): (err: Option<string>)
    ensures err.None? <==> email != "" && password != ""
    ensures err.Some? ==> err.value == FillMessage
  {
    if email == "" || password == "" then Some(FillMessage) else None
  }

  /** The message for a failed sign-in: only the exact credentials error is
      singled out. */
  function LoginFailureMessage(errorMessage: string): (message: string)
    ensures message == BadCredentialsMessage <==> errorMessage == BadCredentialsError
    ensures message == LoginFailedMessage <==> errorMessage != BadCredentialsError
  {
    if errorMessage == BadCredentialsError then BadCredentialsMessage else LoginFailedMessage
  }

  // ---------------------------------------------------------------------
  // Sign-up

  /** `handleRegister`'s checks, first failure wins; the name is optional. */
  function RegisterError(email: string, password: string, confirmPassword: string, username: string): (err: Option<string>)
    ensures err.None? <==>
      email != "" && password != "" && username != ""
      && confirmPassword == password && |password| >= MinPasswordLength
    ensures email == "" || password == "" || confirmPassword == "" || username == "" ==>
      err == Some(FillRequiredMessage)
    // a short password that also differs from its confirmation reports the mismatch
    ensures email != "" && password != "" && confirmPassword != "" && username != "" && password != confirmPassword ==>
      err == Some(MismatchMessage)
    ensures (email != "" && password != "" && confirmPassword != "" && username != ""
             && password == confirmPassword && |password| < MinPasswordLength) ==>
      err == Some(ShortPasswordMessage)
    ensures err == Some(ShortPasswordMessage) ==> password == confirmPassword && |password| < MinPasswordLength
  {
    if email == "" || password == "" || confirmPassword == "" || username == "" then Some(FillRequiredMessage)
    else if password != confirmPassword then Some(MismatchMessage)
    else if |password| < MinPasswordLength then Some(ShortPasswordMessage)
    else None
  }

  /** The message for a failed sign-up. */
  function SignUpFailureMessage(errorMessage: string): (message: string)
    ensures Includes(errorMessage, AlreadyRegistered) ==> message == AlreadyRegisteredMessage
    ensures !Includes(errorMessage, AlreadyRegistered) && errorMessage != "" ==> message == errorMessage
    ensures !Includes(errorMessage, AlreadyRegistered) && errorMessage == "" ==> message == SignUpFailedMessage
  {
    if Includes(errorMessage, AlreadyRegistered) then AlreadyRegisteredMessage
    else if errorMessage != "" then errorMessage
    else SignUpFailedMessage
  }

  // ---------------------------------------------------------------------
  // The referral of a new account

  /** The part of a profile row the referrer lookup reads. */
  datatype ProfileKey = ProfileKey(id: string, username: string)

  /** The rows whose username is `code`. */
  function RowsNamed(profiles: seq<ProfileKey>, code: string): (rows: seq<ProfileKey>)
    ensures forall k :: 0 <= k < |rows| ==> rows[k] in profiles && rows[k].username == code
    ensures forall p :: p in profiles && p.username == code ==> p in rows
  {
    if profiles == [] then []
    else (if profiles[0].username == code then [profiles[0]] else []) + RowsNamed(profiles[1..], code)
  }

  /** The filter keeps a named row once per occurrence and drops the rest:
      it distributes over concatenation. */
  lemma {:induction false} RowsNamedSplits(a: seq<ProfileKey>, b: seq<ProfileKey>, code: string)
    ensures RowsNamed(a + b, code) == RowsNamed(a, code) + RowsNamed(b, code)
  {
    if a == [] {
      assert a + b == b;
    } else {
      assert (a + b)[1..] == a[1..] + b;
      RowsNamedSplits(a[1..], b, code);
    }
  }

  /** No named row, no row found. */
  lemma {:induction false} RowsNamedNone(profiles: seq<ProfileKey>, code: string)
    requires forall k :: 0 <= k < |profiles| ==> profiles[k].username != code
    ensures RowsNamed(profiles, code) == []
  {
    if profiles != [] {
      RowsNamedNone(profiles[1..], code);
    }
  }

  /** Row `k` is the only row whose username is `code`. */
  predicate OnlyNamed(profiles: seq<ProfileKey>, code: string, k: int) {
    0 <= k < |profiles| && profiles[k].username == code
    && forall j :: 0 <= j < |profiles| && j != k ==> profiles[j].username != code
  }

  /** Exactly one named row is exactly one row found. */
  lemma {:induction false} RowsNamedOnly(profiles: seq<ProfileKey>, code: string, k: int)
    requires OnlyNamed(profiles, code, k)
    ensures RowsNamed(profiles, code) == [profiles[k]]
  {
    var before, after := profiles[..k], profiles[k + 1..];
    assert profiles == before + [profiles[k]] + after;
    RowsNamedSplits(before + [profiles[k]], after, code);
    RowsNamedSplits(before, [profiles[k]], code);
    RowsNamedNone(before, code);
    RowsNamedNone(after, code);
    assert RowsNamed([profiles[k]], code) == [profiles[k]] + RowsNamed([], code);
  }

  /** One row found is exactly one named row. */
  lemma {:induction false} RowsNamedSingle(profiles: seq<ProfileKey>, code: string)
    requires |RowsNamed(profiles, code)| == 1
    ensures exists k :: OnlyNamed(profiles, code, k) && profiles[k] == RowsNamed(profiles, code)[0]
  {
    var tail := profiles[1..];
    if profiles[0].username == code {
      assert RowsNamed(tail, code) == [];
      forall j | 1 <= j < |profiles| ensures profiles[j].username != code {
        assert profiles[j] == tail[j - 1];
      }
      assert OnlyNamed(profiles, code, 0);
    } else {
      RowsNamedSingle(tail, code);
      var k :| OnlyNamed(tail, code, k) && tail[k] == RowsNamed(tail, code)[0];
      forall j | 0 <= j < |profiles| && j != k + 1 ensures profiles[j].username != code {
        if j > 0 { assert profiles[j] == tail[j - 1]; }
      }
      assert OnlyNamed(profiles, code, k + 1);
    }
  }

  /** `.eq('username', code).single()` then `referrer?.id`: the id of the
      one profile with that username; nothing when there is none, more
      than one, or its id is empty. */
  function ReferrerId(profiles: seq<ProfileKey>, code: string): (id: Option<string>)
    ensures id.Some? ==> id.value != "" && ProfileKey(id.value, code) in profiles
    ensures id.Some? ==> exists k :: OnlyNamed(profiles, code, k) && profiles[k].id == id.value
    ensures forall k :: OnlyNamed(profiles, code, k) && profiles[k].id != "" ==> id == Some(profiles[k].id)
  {
    var rows := RowsNamed(profiles, code);
    if |rows| == 1 && rows[0].id != "" then
      RowsNamedSingle(profiles, code);
      Some(rows[0].id)
    else
      assert forall k :: OnlyNamed(profiles, code, k) ==> RowsNamed(profiles, code) == [profiles[k]] by {
        forall k | OnlyNamed(profiles, code, k) ensures RowsNamed(profiles, code) == [profiles[k]] {
          RowsNamedOnly(profiles, code, k);
        }
      }
      None
  }

  /** A row of `referrals` as the page inserts it. */
  datatype ReferralInsert = ReferralInsert(referrerId: string, referredId: string, bonusAmount: real)

  /** What happens with the stored code after sign-up: the referral
      inserted, if any, and whether the code is removed from storage. */
  datatype ReferralStep = ReferralStep(insert: Option<ReferralInsert>, removeCode: bool)

  /** The referral processing of `handleRegister`: `storedCode` is the
      saved `referralCode`, `insertResult` the answer the insert would get. */
  function ProcessReferral(storedCode: Option<string>, profiles: seq<ProfileKey>, newUserId: string, insertResult: WriteResult): (step: ReferralStep)
    // a referral is recorded only for a code that is the username of an existing profile
    ensures step.insert.Some? <==>
      storedCode.Some? && storedCode.value != "" && ReferrerId(profiles, storedCode.value).Some?
    ensures step.insert.Some? ==>
      && ProfileKey(step.insert.value.referrerId, storedCode.value) in profiles
      && step.insert.value.referredId == newUserId
      && step.insert.value.bonusAmount == ReferralBonus
    // the code is dropped only once its referral is stored
    ensures step.removeCode <==> step.insert.Some? && insertResult.WriteOk?
  {
    if storedCode.None? || storedCode.value == "" then ReferralStep(None, false)
    else match ReferrerId(profiles, storedCode.value)
      case None => ReferralStep(None, false)
      case Some(referrer) =>
        ReferralStep(Some(ReferralInsert(referrer, newUserId, ReferralBonus)), insertResult.WriteOk?)
  }

  /** The answer of `signInWithPassword`. */
  datatype SignInResult = SignedIn | SignInError(message: string)

  /** The answer of `signUp`: an error, or the new user's id when one is returned. */
  datatype SignUpResult = SignedUp(userId: Option<string>) | SignUpError(message: string)

  class AuthForm {
    var mode: AuthMode
    var email: string
    var password: string
    var confirmPassword: string
    var name: string
    var username: string
    var loading: bool

    constructor (initialMode: AuthMode)
      ensures mode == initialMode && !loading
      ensures email == "" && password == "" && confirmPassword == "" && name == "" && username == ""
    {
      mode := initialMode;
      email, password, confirmPassword, name, username := "", "", "", "", "";
      loading := false;
    }

    method HandleToggleMode()
      modifies this
      ensures mode == ToggleMode(old(mode))
      ensures email == old(email) && password == old(password) && confirmPassword == old(confirmPassword)
      ensures name == old(name) && username == old(username) && loading == old(loading)
    {
      mode := ToggleMode(mode);
    }

    /** `handleLogin`: `loggedIn` is the email passed to `onLogin`. */
    method HandleLogin(result: SignInResult) returns (loggedIn: Option<string>, toast: Toast)
      modifies this
      ensures mode == old(mode) && email == old(email) && password == old(password)
      ensures confirmPassword == old(confirmPassword) && name == old(name) && username == old(username)
      ensures LoginError(email, password).Some? ==>
        loggedIn.None? && toast == ErrorToast(FillMessage) && loading == old(loading)
      ensures LoginError(email, password).None? ==> !loading
      ensures LoginError(email, password).None? && result.SignInError? ==>
        loggedIn.None? && toast == ErrorToast(LoginFailureMessage(result.message))
      ensures LoginError(email, password).None? && result.SignedIn? ==>
        loggedIn == Some(email) && toast == SuccessToast("Sucesso!", "Login realizado com sucesso.")
    {
      var err := LoginError(email, password);
      if err.Some? {
        return None, ErrorToast(err.value);
      }
      loading := true;
      if result.SignInError? {
        loggedIn, toast := None, ErrorToast(LoginFailureMessage(result.message));
      } else {
        loggedIn, toast := Some(email), SuccessToast("Sucesso!", "Login realizado com sucesso.");
      }
      loading := false;
    }

    /** `handleRegister`: `storedCode` is the saved referral code and
        `profiles` the table the referrer is looked up in. Registration
        completes, with `onLogin(email)`, whatever happens to the referral. */
    method HandleRegister(result: SignUpResult, storedCode: Option<string>, profiles: seq<ProfileKey>, referralInsert: WriteResult)
      returns (loggedIn: Option<string>, referral: ReferralStep, toast: Toast)
      modifies this
      ensures mode == old(mode) && email == old(email) && password == old(password)
      ensures confirmPassword == old(confirmPassword) && name == old(name) && username == old(username)
      ensures var err := RegisterError(email, password, confirmPassword, username);
        && (err.Some? ==>
              loggedIn.None? && referral == ReferralStep(None, false)
              && toast == ErrorToast(err.value) && loading == old(loading))
        && (err.None? ==> !loading)
        && (err.None? && result.SignUpError? ==>
              loggedIn.None? && referral == ReferralStep(None, false)
              && toast == ErrorToast(SignUpFailureMessage(result.message)))
        && (err.None? && result.SignedUp? && result.userId.None? ==>
              loggedIn.None? && referral == ReferralStep(None, false) && toast == NoToast)
        && (err.None? && result.SignedUp? && result.userId.Some? ==>
              && referral == ProcessReferral(storedCode, profiles, result.userId.value, referralInsert)
              && loggedIn == Some(email)
              && toast == SuccessToast("Sucesso!", "Conta criada com sucesso! Verifique seu email para confirmar."))
    {
      var err := RegisterError(email, password, confirmPassword, username);
      if err.Some? {
        return None, ReferralStep(None, false), ErrorToast(err.value);
      }
      loading := true;
      loggedIn, referral, toast := None, ReferralStep(None, false), NoToast;
      match result {
        case SignUpError(message) =>
          toast := ErrorToast(SignUpFailureMessage(message));
        case SignedUp(userId) =>
          if userId.Some? {
            referral := ProcessReferral(storedCode, profiles, userId.value, referralInsert);
            toast := SuccessToast("Sucesso!", "Conta criada com sucesso! Verifique seu email para confirmar.");
            loggedIn := Some(email);
          }
      }
      loading := false;
    }
  }
}

=== FILE: auth_section.dfy ===
/** The simulated sign-in card (src/components/AuthSection.tsx): two checks,
    then `onLogin` with the typed email. */
module AuthSection {
  import opened Common

  const FillMessage: string := "Por favor, preencha todos os campos."
  const InvalidEmailMessage: string := "Por favor, insira um e-mail válido."

  /** `handleSubmit`'s checks: both fields, then an '@' in the email. */
  function SubmitError(email: string, password: string): (err: Option<string>)
    ensures err.None? <==> email != "" && password != "" && Contains(email, '@')
    // the empty-field check comes first
    ensures email == "" || password == "" ==> err == Some(FillMessage)
    ensures err == Some(InvalidEmailMessage) <==> email != "" && password != "" && !Contains(email, '@')
  {
    if email == "" || password == "" then Some(FillMessage)
    else if !Contains(email, '@') then Some(InvalidEmailMessage)
    else None
  }

  class SignInCard {
    var email: string
    var password: string
    var isLoading: bool

    constructor ()
      ensures email == "" && password == "" && !isLoading
    {
      email, password := "", "";
      isLoading := false;
    }

    /** `handleSubmit`: `loggedIn` is the email passed to `onLogin`, once,
        on acceptance; the loading flag ends false either way. */
    method HandleSubmit() returns (loggedIn: Option<string>, toast: Toast)
      modifies this
      ensures email == old(email) && password == old(password)
      ensures var err := SubmitError(email, password);
        if err.Some?
        then loggedIn.None? && toast == ErrorToast(err.value) && isLoading == old(isLoading)
        else loggedIn == Some(email) && !isLoading
             && toast == SuccessToast("Sucesso!", "Login realizado com sucesso.")
    {
      var err := SubmitError(email, password);
      if err.Some? {
        return None, ErrorToast(err.value);
      }
      isLoading := true;
      loggedIn := Some(email);
      toast := SuccessToast("Sucesso!", "Login realizado com sucesso.");
      isLoading := false;
    }
  }
}

=== FILE: blockchain_monitor.dfy ===
/** The simulated payment monitor (src/hooks/useBlockchainMonitor.tsx): it
    picks the signed-in user's pending packages, schedules some of them for
    confirmation, and a confirmation activates one package by id. */
module BlockchainMonitor {
  import opened Common

  /** A row of `packages` as far as the monitor reads and writes it;
      `activationDate` is an instant in milliseconds. */
  datatype PackageRecord = PackageRecord(
    id: string, userId: string, amount: real, status: string,
    activationDate: Option<int>, hashPayment: Option<string>)

  predicate PendingOf(pkg: PackageRecord, userId: string) {
    pkg.userId == userId && pkg.status == "pending"
  }

  /** `.eq('user_id', user.id).eq('status', 'pending')`: the user's pending
      packages, in table order. */
  function PendingFor(table: seq<PackageRecord>, userId: string): (pending: seq<PackageRecord>)
    ensures forall k :: 0 <= k < |pending| ==> pending[k] in table && PendingOf(pending[k], userId)
    ensures forall pkg :: pkg in table && PendingOf(pkg, userId) ==> pkg in pending
    ensures |pending| <= |table|
  {
    if table == [] then []
    else (if PendingOf(table[0], userId) then [table[0]] else []) + PendingFor(table[1..], userId)
  }

  /** The ids picked for confirmation: package `k` is picked when its draw
      (`Math.random() < 0.3`, given here as `draws[k]`) succeeds. */
  function Picked(pending: seq<PackageRecord>, draws: seq<bool>): seq<string> {
    if pending == [] then []
    else
      var n := |pending| - 1;
      Picked(pending[..n], draws) + (if n < |draws| && draws[n] then [pending[n].id] else [])
  }

  /** Every picked id is the id of one of the packages examined, and no
      more ids are picked than packages examined. */
  lemma {:induction false} PickedArePending(pending: seq<PackageRecord>, draws: seq<bool>)
    ensures forall id :: id in Picked(pending, draws) ==>
      exists k :: 0 <= k < |pending| && pending[k].id == id
    ensures |Picked(pending, draws)| <= |pending|
  {
    if pending != [] {
      var n := |pending| - 1;
      PickedArePending(pending[..n], draws);
      var before := Picked(pending[..n], draws);
      assert Picked(pending, draws) == before + (if n < |draws| && draws[n] then [pending[n].id] else []);
      forall id | id in Picked(pending, draws)
        ensures exists k :: 0 <= k < |pending| && pending[k].id == id
      {
        if id in before {
          var k :| 0 <= k < n && pending[..n][k].id == id;
          assert pending[k].id == id;
        } else {
          assert pending[n].id == id;
        }
      }
    }
  }

  /** The update a confirmation sends for package `id`: active, activated
      at `now`, with the transaction hash. Every row with that id is
      updated, pending or not; nothing else changes. */
  function Activate(table: seq<PackageRecord>, id: string, now: int, txHash: string): (updated: seq<PackageRecord>)
    ensures |updated| == |table|
    ensures forall k :: 0 <= k < |table| && table[k].id != id ==> updated[k] == table[k]
    ensures forall k :: 0 <= k < |table| && table[k].id == id ==>
      && updated[k].status == "active"
      && updated[k].activationDate == Some(now)
      && updated[k].hashPayment == Some(txHash)
      && updated[k].(status := table[k].status, activationDate := table[k].activationDate,
                     hashPayment := table[k].hashPayment) == table[k]
  {
    seq(|table|, k requires 0 <= k < |table| =>
      if table[k].id == id
      then table[k].(status := "active", activationDate := Some(now), hashPayment := Some(txHash))
      else table[k])
  }

  /** A package picked by two checks is updated twice: the update is not
      conditioned on the package still being pending, so the second one
      overwrites the activation instant and hash of the first. */
  lemma ActivatedTwice(table: seq<PackageRecord>, id: string, first: int, second: int, hash1: string, hash2: string)
    ensures Activate(Activate(table, id, first, hash1), id, second, hash2) == Activate(table, id, second, hash2)
  {
    var once := Activate(table, id, first, hash1);
    assert forall k :: 0 <= k < |table| ==>
      Activate(once, id, second, hash2)[k] == Activate(table, id, second, hash2)[k];
  }

  /** After activation the package is no longer among the pending ones. */
  lemma ActivatedLeavesPending(table: seq<PackageRecord>, id: string, now: int, txHash: string, userId: string)
    ensures forall pkg :: pkg in PendingFor(Activate(table, id, now, txHash), userId) ==> pkg.id != id
  {
  }

  /** The outcome of one scheduled confirmation: the table afterwards and
      the toast shown. */
  datatype Confirmation = Confirmation(after: seq<PackageRecord>, toast: Toast)

  /** The delayed confirmation of package `id`: the hash is "0x" and the
      random text `hashSuffix`; the toast appears only when the update
      succeeds, and a failed update leaves the table as it was. */
  function Confirm(table: seq<PackageRecord>, id: string, now: int, hashSuffix: string, result: WriteResult): (c: Confirmation)
    ensures result.WriteOk? ==> c.toast.SuccessToast? && c.toast.title == "Pagamento Confirmado!"
    ensures result.WriteError? ==> c.after == table && c.toast == NoToast
    ensures result.WriteOk? ==> |c.after| == |table|
    ensures result.WriteOk? ==> c.after == Activate(table, id, now, PaymentHash(hashSuffix))
    ensures result.WriteOk? ==> forall k :: 0 <= k < |table| && table[k].id != id ==> c.after[k] == table[k]
    ensures result.WriteOk? ==> forall k :: 0 <= k < |table| && table[k].id == id ==>
      && c.after[k].status == "active" && c.after[k].hashPayment.Some?
      && StartsWith(c.after[k].hashPayment.value, "0x") && c.after[k].hashPayment.value[2..] == hashSuffix
  {
    match result
    case WriteError(_, _) => Confirmation(table, NoToast)
    case WriteOk => Confirmation(Activate(table, id, now, PaymentHash(hashSuffix)), SuccessToast("Pagamento Confirmado!", ""))
  }

  class Monitor {
    var isMonitoring: bool

    constructor ()
      ensures !isMonitoring
    {
      isMonitoring := false;
    }

    /** `startMonitoring`: does nothing when already running; `started`
        tells whether it started (and so handed back a cleanup). */
    method StartMonitoring() returns (started: bool)
      modifies this
      ensures started <==> !old(isMonitoring)
      ensures isMonitoring
    {
      if isMonitoring {
        return false;
      }
      isMonitoring := true;
      started := true;
    }

    /** The cleanup returned by `startMonitoring`. */
    method Cleanup()
      modifies this
      ensures !isMonitoring
    {
      isMonitoring := false;
    }

    /** `checkPendingPackages`: the packages read for the signed-in user,
        and the ids scheduled for confirmation, one draw per package in
        order. A failed read examines nothing. */
    method CheckPendingPackages(user: Option<AuthUser>, table: Fetch<seq<PackageRecord>>, draws: seq<bool>)
      returns (examined: seq<PackageRecord>, scheduled: seq<string>)
      ensures user.None? || table.FetchError? ==> examined == [] && scheduled == []
      ensures user.Some? && table.Fetched? ==> examined == PendingFor(table.rows, user.value.id)
      ensures scheduled == Picked(examined, draws)
    {
      examined, scheduled := [], [];
      if user.None? || table.FetchError? {
        return;
      }
      examined := PendingFor(table.rows, user.value.id);
      var i := 0;
      while i < |examined|
        invariant 0 <= i <= |examined|
        invariant scheduled == Picked(examined[..i], draws)
      {
        assert examined[..i + 1][..i] == examined[..i];
        if i < |draws| && draws[i] {
          scheduled := scheduled + [examined[i].id];
        }
        i := i + 1;
      }
      assert examined[..i] == examined;
    }
  }
}

=== FILE: common.dfy ===
/** Values shared by every component: optional values, JavaScript numbers as
    the forms see them, backend answers, and the string operations of the
    JavaScript runtime that the components rely on (`slice`, `trim`,
    `includes`, `startsWith`, `split(c)[0]`, `split(c).pop()`, decimal
    rendering and `padStart`). */
module Common {

  datatype Option<+T> = None | Some(value: T)

  /** A JavaScript number as produced by `parseFloat`: a finite value or NaN.
      Every ordered comparison with NaN is false. */
  datatype Number = Num(value: real) | NaN {
    predicate Below(bound: real) { Num? && value < bound }
    predicate Above(bound: real) { Num? && value > bound }
    predicate AtMost(bound: real) { Num? && value <= bound }
  }

  /** The answer of one backend write (insert, update, upsert, delete). */
  datatype WriteResult = WriteOk | WriteError(code: string, message: string)

  /** The answer of one backend read. */
  datatype Fetch<T> = Fetched(rows: T) | FetchError(code: string, message: string)

  /** The signed-in user as the auth client reports it. */
  datatype AuthUser = AuthUser(id: string, email: Option<string>)

  /** The error code of a `.single()` read that found no row; the pages
      treat it as "nothing stored" rather than as a failure. */
  const NoRowsCode: string := "PGRST116"

  /** The notification a handler shows. An error toast keeps only its
      description (nearly all are titled "Erro"). A success description that
      interpolates a JavaScript number is kept empty. */
  datatype Toast = NoToast | ErrorToast(description: string) | SuccessToast(title: string, description: string)

  // ---------------------------------------------------------------------
  // Characters

  predicate IsDigit(c: char) { '0' <= c <= '9' }

  /** The characters JavaScript's `String.prototype.trim` removes: the
      WhiteSpace and LineTerminator productions of ECMAScript. */
  predicate IsWhitespace(c: char) {
    c == ' ' || c == '\t' || c == '\n' || c == '\r' || c == '\U{000B}' || c == '\U{000C}'
    || c == '\U{00A0}' || c == '\U{1680}' || ('\U{2000}' <= c <= '\U{200A}')
    || c == '\U{2028}' || c == '\U{2029}' || c == '\U{202F}' || c == '\U{205F}'
    || c == '\U{3000}' || c == '\U{FEFF}'
  }

  predicate AllDigits(s: string) { forall i :: 0 <= i < |s| ==> IsDigit(s[i]) }

  predicate Contains(s: string, c: char) { exists i :: 0 <= i < |s| && s[i] == c }

  predicate StartsWith(s: string, p: string) { |p| <= |s| && s[..|p|] == p }

  /** `s.includes(sub)`: `sub` occurs somewhere in `s`. */
  predicate Includes(s: string, sub: string)
    decreases |s|
  {
    StartsWith(s, sub) || (s != [] && Includes(s[1..], sub))
  }

  // ---------------------------------------------------------------------
  // Slicing

  /** `s.slice(0, n)`: the first `n` characters, or all of `s` if shorter. */
  function Prefix(s: string, n: nat): (r: string)
    ensures |r| == (if |s| < n then |s| else n)
    ensures StartsWith(s, r)
  {
    if |s| <= n then s else s[..n]
  }

  // ---------------------------------------------------------------------
  // Trimming

  /** How many whitespace characters `s` starts with. */
  function LeadingWhitespace(s: string): (n: nat)
    ensures n <= |s|
    ensures forall k :: 0 <= k < n ==> IsWhitespace(s[k])
    ensures n < |s| ==> !IsWhitespace(s[n])
  {
    if |s| > 0 && IsWhitespace(s[0]) then 1 + LeadingWhitespace(s[1..]) else 0
  }

  function TrimEnd(s: string): (r: string)
    ensures |r| <= |s| && r == s[..|r|]
    ensures forall k :: |r| <= k < |s| ==> IsWhitespace(s[k])
    ensures r != [] ==> !IsWhitespace(r[|r| - 1])
  {
    if |s| > 0 && IsWhitespace(s[|s| - 1]) then TrimEnd(s[..|s| - 1]) else s
  }

  /** No whitespace at either end. */
  predicate IsTrimmed(s: string) {
    s == [] || (!IsWhitespace(s[0]) && !IsWhitespace(s[|s| - 1]))
  }

  /** `s.trim()`. The result is the piece of `s` that starts after its
      leading whitespace; it is trimmed, and everything after it is
      whitespace too. */
  function Trim(s: string): (r: string)
    ensures IsTrimmed(r)
    ensures LeadingWhitespace(s) + |r| <= |s|
    ensures r == s[LeadingWhitespace(s)..LeadingWhitespace(s) + |r|]
    ensures forall k :: LeadingWhitespace(s) + |r| <= k < |s| ==> IsWhitespace(s[k])
  {
    var i := LeadingWhitespace(s);
    var r := TrimEnd(s[i..]);
    assert r != [] ==> r[0] == s[i];
    r
  }

  /** A string with nothing to trim is its own trim. */
  lemma TrimOfTrimmed(s: string)
    ensures IsTrimmed(s) ==> Trim(s) == s
  {
    if s != [] && IsTrimmed(s) {
      assert LeadingWhitespace(s) == 0;
      assert TrimEnd(s) == s;
    }
  }

  /** Trimming is idempotent. */
  lemma TrimIdempotent(s: string)
    ensures Trim(Trim(s)) == Trim(s)
  {
    TrimOfTrimmed(Trim(s));
  }

  /** The trim is empty exactly when the string is all whitespace. */
  lemma TrimEmptyIffBlank(s: string)
    ensures Trim(s) == [] <==> forall k :: 0 <= k < |s| ==> IsWhitespace(s[k])
  {
    if Trim(s) == [] {
      forall k | 0 <= k < |s| ensures IsWhitespace(s[k]) {
        if k >= LeadingWhitespace(s) {
          assert LeadingWhitespace(s) + |Trim(s)| <= k;
        }
      }
    }
  }

  // ---------------------------------------------------------------------
  // Splitting on one character

  /** `s.split(c)[0]`: everything before the first `c`, or all of `s`. */
  function BeforeFirst(s: string, c: char): (r: string)
    ensures StartsWith(s, r) && !Contains(r, c)
    ensures |r| < |s| ==> s[|r|] == c
    ensures !Contains(s, c) ==> r == s
  {
    if s == [] then []
    else if s[0] == c then []
    else [s[0]] + BeforeFirst(s[1..], c)
  }

  /** The text before the first `c` of `a + b` is `a` when `a` has no `c`
      and `b` starts with one. */
  lemma {:induction false} BeforeFirstOfPrefix(a: string, b: string, c: char)
    requires !Contains(a, c) && b != [] && b[0] == c
    ensures BeforeFirst(a + b, c) == a
  {
    if a == [] {
      assert a + b == b;
    } else {
      assert (a + b)[0] == a[0];
      assert (a + b)[1..] == a[1..] + b;
      assert !Contains(a[1..], c) by {
        forall k | 0 <= k < |a[1..]| ensures a[1..][k] != c {
          assert a[1..][k] == a[k + 1];
        }
      }
      BeforeFirstOfPrefix(a[1..], b, c);
    }
  }

  /** `s.split(c).pop()`: everything after the last `c`, or all of `s`. */
  function AfterLast(s: string, c: char): (r: string)
    ensures |r| <= |s| && r == s[|s| - |r|..] && !Contains(r, c)
    ensures |r| < |s| ==> s[|s| - |r| - 1] == c
  {
    if s == [] then []
    else if s[|s| - 1] == c then []
    else AfterLast(s[..|s| - 1], c) + [s[|s| - 1]]
  }

  /** The package record the purchase form hands to the page and the
      countdown card is shown for: the parsed amount, the purchase instant
      in milliseconds, and the payment hash. */
  datatype PackageData = PackageData(amount: Number, purchaseTime: int, hash: string)

  /** A simulated payment hash: "0x" followed by random base-36 text,
      given here as `suffix`. */
  function PaymentHash(suffix: string): (hash: string)
    ensures StartsWith(hash, "0x") && hash[2..] == suffix
  {
    "0x" + suffix
  }

  // ---------------------------------------------------------------------
  // Referral links

  /** The invitation link both the dashboard and the referrals page build. */
  function ReferralLink(origin: string, username: string): string {
    origin + "/?ref=" + username
  }

  // ---------------------------------------------------------------------
  // Decimal rendering (`n.toString()` and `padStart(2, '0')`)

  function DigitChar(d: nat): (c: char)
    requires d < 10
    ensures IsDigit(c)
  {
    ['0', '1', '2', '3', '4', '5', '6', '7', '8', '9'][d]
  }

  function DigitValue(c: char): (d: nat)
    requires IsDigit(c)
    ensures d < 10
  {
    (c as int - '0' as int) as nat
  }

  /** The value of a string of decimal digits, most significant first. */
  function DecimalValue(s: string): nat
    requires AllDigits(s)
  {
    if s == [] then 0 else DecimalValue(s[..|s| - 1]) * 10 + DigitValue(s[|s| - 1])
  }

  /** `n.toString()` for a non-negative integer. */
  function Decimal(n: nat): (r: string)
    ensures |r| >= 1 && AllDigits(r)
    ensures |r| > 1 ==> r[0] != '0'
    ensures n < 10 <==> |r| == 1
    ensures 10 <= n < 100 ==> |r| == 2
  {
    if n < 10 then [DigitChar(n)] else Decimal(n / 10) + [DigitChar(n % 10)]
  }

  lemma {:induction false} DecimalRoundTrip(n: nat)
    ensures DecimalValue(Decimal(n)) == n
  {
    var r := Decimal(n);
    if n >= 10 {
      DecimalRoundTrip(n / 10);
      assert r[..|r| - 1] == Decimal(n / 10);
    }
  }

  /** Euclidean division is determined by its bounds. */
  lemma DivUnique(x: int, d: int, q: int, r: int)
    requires d > 0 && 0 <= r < d && x == q * d + r
    ensures x / d == q && x % d == r
  {
    var k := x / d - q;
    assert k * d == r - x % d by {
      assert x == (x / d) * d + x % d;
    }
    assert k >= 1 ==> k * d >= d;
    assert k <= -1 ==> k * d <= -d;
  }

  /** `n.toString().padStart(2, '0')`. */
  function Pad2(n: nat): (r: string)
    ensures AllDigits(r) && |r| >= 2
    ensures n < 100 ==> |r| == 2
    ensures DecimalValue(r) == n
  {
    var d := Decimal(n);
    DecimalRoundTrip(n);
    if |d| < 2 then
      assert (['0'] + d)[..1] == ['0'];
      ['0'] + d
    else d
  }
}

=== FILE: countdown.dfy ===
/** The package countdown card (src/components/CountdownTimer.tsx): the time
    left until a package's return is released, 21 days after its purchase,
    split into days, hours, minutes and seconds. */
module Countdown {
  import opened Common

  // The divisors are written as literal products, as the card writes them.
  const SecondMs: int := 1000
  const MinuteMs: int := 1000 * 60
  const HourMs: int := 1000 * 60 * 60
  const DayMs: int := 1000 * 60 * 60 * 24

  /** This card counts down 21 days (the package list uses 20; see MyPackages). */
  const TermDays: int := 21
  const TermMs: int := 21 * 24 * 60 * 60 * 1000

  const ReleasedText: string := "Rendimento Liberado!"

  datatype TimeLeft = Expired | Left(days: nat, hours: nat, minutes: nat, seconds: nat)

  /** The milliseconds a split stands for (zero once expired). */
  function Milliseconds(t: TimeLeft): int {
    match t
    case Expired => 0
    case Left(d, h, m, s) => d * 86_400_000 + h * 3_600_000 + m * 60_000 + s * 1000
  }

  /** The four fields of a live split are in their clock ranges. */
  predicate InClockRange(t: TimeLeft) {
    t.Left? ==> t.hours < 24 && t.minutes < 60 && t.seconds < 60
  }

  /** The split of a remaining time: expired when nothing is left, otherwise
      whole days, hours, minutes and seconds that add up to the remaining
      time with less than a second left over. */
  function Split(timeDiff: int): (t: TimeLeft)
    ensures t.Expired? <==> timeDiff <= 0
    ensures InClockRange(t)
    ensures t.Left? ==> Milliseconds(t) <= timeDiff < Milliseconds(t) + SecondMs
  {
    if timeDiff <= 0 then Expired
    else
      SplitReconstructs(timeDiff);
      Left(timeDiff / (1000 * 60 * 60 * 24),
           (timeDiff % (1000 * 60 * 60 * 24)) / (1000 * 60 * 60),
           (timeDiff % (1000 * 60 * 60)) / (1000 * 60),
           (timeDiff % (1000 * 60)) / 1000)
  }

  /** The arithmetic behind `Split`: the fields taken from the successive
      remainders add back up to the remaining time. */
  lemma SplitReconstructs(x: int)
    requires x > 0
    ensures var d, h, m, s := x / (1000 * 60 * 60 * 24),
                              (x % (1000 * 60 * 60 * 24)) / (1000 * 60 * 60),
                              (x % (1000 * 60 * 60)) / (1000 * 60),
                              (x % (1000 * 60)) / 1000;
            && 0 <= d && 0 <= h < 24 && 0 <= m < 60 && 0 <= s < 60
            && d * 86_400_000 + h * 3_600_000 + m * 60_000 + s * 1000 <= x
            && x < d * 86_400_000 + h * 3_600_000 + m * 60_000 + s * 1000 + 1000
  {
    var d, inDay := x / 86_400_000, x % 86_400_000;
    var h, inHour := inDay / 3_600_000, inDay % 3_600_000;
    DivUnique(x, 3_600_000, d * 24 + h, inHour);
    var m, inMinute := inHour / 60_000, inHour % 60_000;
    DivUnique(x, 60_000, (d * 24 + h) * 60 + m, inMinute);
    var s, extra := inMinute / 1000, inMinute % 1000;
    assert x == d * 86_400_000 + h * 3_600_000 + m * 60_000 + s * 1000 + extra;
  }

  /** One tick of the card at time `now` for a package bought at
      `purchaseTime`: expired exactly from the end of the 21-day term on
      (the end instant itself counts as expired). */
  function Remaining(now: int, purchaseTime: int): (t: TimeLeft)
    ensures t.Expired? <==> now >= purchaseTime + TermMs
    ensures InClockRange(t)
    ensures t.Left? ==> Milliseconds(t) <= purchaseTime + TermMs - now < Milliseconds(t) + SecondMs
  {
    Split(purchaseTime + TermMs - now)
  }

  /** The clock ranges and the reconstruction determine the split: for time
      still left, any split with both properties is the one the card
      computes. (A live card can show all zeros, "0d 00h 00m 00s", during
      the last second.) */
  lemma SplitUnique(timeDiff: int, t: TimeLeft)
    requires timeDiff > 0 && t.Left? && InClockRange(t)
    requires Milliseconds(t) <= timeDiff < Milliseconds(t) + SecondMs
    ensures Split(timeDiff) == t
  {
    var x, extra := timeDiff, timeDiff - Milliseconds(t);
    var inMinute := t.seconds * 1000 + extra;
    var inHour := t.minutes * 60_000 + inMinute;
    var inDay := t.hours * 3_600_000 + inHour;
    DivUnique(x, 86_400_000, t.days, inDay);
    DivUnique(inDay, 3_600_000, t.hours, inHour);
    DivUnique(x, 3_600_000, t.days * 24 + t.hours, inHour);
    DivUnique(inHour, 60_000, t.minutes, inMinute);
    DivUnique(x, 60_000, (t.days * 24 + t.hours) * 60 + t.minutes, inMinute);
    DivUnique(inMinute, 1000, t.seconds, extra);
  }

  /** As time passes the displayed countdown never goes up. */
  lemma RemainingNeverIncreases(now1: int, now2: int, purchaseTime: int)
    requires now1 <= now2
    ensures Milliseconds(Remaining(now2, purchaseTime)) <= Milliseconds(Remaining(now1, purchaseTime))
  {
    var t1, t2 := Remaining(now1, purchaseTime), Remaining(now2, purchaseTime);
    if t2.Left? {
      assert t1.Left?;
      var k1 := t1.days * 86400 + t1.hours * 3600 + t1.minutes * 60 + t1.seconds;
      var k2 := t2.days * 86400 + t2.hours * 3600 + t2.minutes * 60 + t2.seconds;
      assert Milliseconds(t1) == k1 * 1000;
      assert Milliseconds(t2) == k2 * 1000;
      WholeSecondsBelow(k1, k2);
    }
  }

  /** Two whole numbers of seconds less than a second apart in one direction. */
  lemma WholeSecondsBelow(k1: int, k2: int)
    requires k2 * 1000 < k1 * 1000 + 1000
    ensures k2 * 1000 <= k1 * 1000
  {
  }

  // ---------------------------------------------------------------------
  // The text the card shows

  /** `${days}d ${hh}h ${mm}m ${ss}s`, or the release message. */
  function Text(t: TimeLeft): string {
    match t
    case Expired => ReleasedText
    case Left(d, h, m, s) =>
      Decimal(d) + "d " + Pad2(h) + "h " + Pad2(m) + "m " + Pad2(s) + "s"
  }

  /** Reads a two-digit field. */
  function TwoDigits(hi: char, lo: char): Option<nat> {
    if IsDigit(hi) && IsDigit(lo) then Some(DigitValue(hi) * 10 + DigitValue(lo)) else None
  }

  /** Reads `d <hh>h <mm>m <ss>s`, the part after the days. */
  function ParseClock(rest: string): Option<(nat, nat, nat)> {
    if |rest| != 13 then None
    else if rest[0] != 'd' || rest[1] != ' ' || rest[4] != 'h' || rest[5] != ' '
         || rest[8] != 'm' || rest[9] != ' ' || rest[12] != 's' then None
    else
      match (TwoDigits(rest[2], rest[3]), TwoDigits(rest[6], rest[7]), TwoDigits(rest[10], rest[11]))
      case (Some(h), Some(m), Some(sec)) => Some((h, m, sec))
      case _ => None
  }

  /** Reads the card's text back: the release message, or unpadded days
      followed by exactly two digits each for hours, minutes and seconds. */
  function ParseText(s: string): Option<TimeLeft> {
    if s == ReleasedText then Some(Expired)
    else
      var days := BeforeFirst(s, 'd');
      if days == [] || !AllDigits(days) then None
      else
        match ParseClock(s[|days|..])
        case Some((h, m, sec)) => Some(Left(DecimalValue(days), h, m, sec))
        case None => None
  }

  /** Every text the card shows for a split in clock range reads back as
      that split: days unpadded, the other three fields two digits wide. */
  lemma TextRoundTrip(t: TimeLeft)
    requires InClockRange(t)
    ensures ParseText(Text(t)) == Some(t)
  {
    if t.Left? {
      DecimalRoundTrip(t.days);
      ParseLayout(Decimal(t.days), Pad2(t.hours), Pad2(t.minutes), Pad2(t.seconds));
    }
  }

  /** The layout `<days>d <hh>h <mm>m <ss>s` is read field by field. */
  lemma ParseLayout(d: string, hh: string, mm: string, ss: string)
    requires d != [] && AllDigits(d)
    requires |hh| == |mm| == |ss| == 2 && AllDigits(hh) && AllDigits(mm) && AllDigits(ss)
    ensures ParseText(d + "d " + hh + "h " + mm + "m " + ss + "s")
         == Some(Left(DecimalValue(d), DecimalValue(hh), DecimalValue(mm), DecimalValue(ss)))
  {
    var tail := ['d', ' ', hh[0], hh[1], 'h', ' ', mm[0], mm[1], 'm', ' ', ss[0], ss[1], 's'];
    LayoutTail(d, hh, mm, ss);
    var s := d + tail;
    assert s != ReleasedText by {
      assert s[0] == d[0] && IsDigit(d[0]) && ReleasedText[0] == 'R';
    }
    BeforeFirstOfDigits(d, tail);
    assert s[|d|..] == tail;
    ParseClockLayout(hh, mm, ss);
  }

  lemma ParseClockLayout(hh: string, mm: string, ss: string)
    requires |hh| == |mm| == |ss| == 2 && AllDigits(hh) && AllDigits(mm) && AllDigits(ss)
    ensures ParseClock(['d', ' ', hh[0], hh[1], 'h', ' ', mm[0], mm[1], 'm', ' ', ss[0], ss[1], 's'])
         == Some((DecimalValue(hh), DecimalValue(mm), DecimalValue(ss)))
  {
    TwoDigitsValue(hh);
    TwoDigitsValue(mm);
    TwoDigitsValue(ss);
  }

  lemma TwoDigitsValue(s: string)
    requires |s| == 2 && AllDigits(s)
    ensures TwoDigits(s[0], s[1]) == Some(DecimalValue(s))
  {
    assert s[..1] == [s[0]] && s[..1][..0] == [];
    assert DecimalValue(s[..1]) == DigitValue(s[0]);
    assert DecimalValue(s) == DecimalValue(s[..1]) * 10 + DigitValue(s[1]);
  }

  lemma LayoutTail(d: string, hh: string, mm: string, ss: string)
    requires |hh| == |mm| == |ss| == 2
    ensures d + "d " + hh + "h " + mm + "m " + ss + "s"
         == d + ['d', ' ', hh[0], hh[1], 'h', ' ', mm[0], mm[1], 'm', ' ', ss[0], ss[1], 's']
  {
    assert hh == [hh[0], hh[1]] && mm == [mm[0], mm[1]] && ss == [ss[0], ss[1]];
  }

  /** Splitting at the first 'd' recovers a digit string followed by "d". */
  lemma {:induction false} BeforeFirstOfDigits(d: string, tail: string)
    requires AllDigits(d) && |tail| > 0 && tail[0] == 'd'
    ensures BeforeFirst(d + tail, 'd') == d
  {
    if d != [] {
      assert (d + tail)[1..] == d[1..] + tail;
      BeforeFirstOfDigits(d[1..], tail);
    }
  }

  // ---------------------------------------------------------------------
  // The card's state

  class CountdownTimer {
    const packageData: Option<PackageData>
    var timeLeft: string
    var isExpired: bool

    constructor (packageData: Option<PackageData>)
      ensures this.packageData == packageData
      ensures timeLeft == "" && !isExpired
    {
      this.packageData := packageData;
      timeLeft := "";
      isExpired := false;
    }

    /** One tick of `updateCountdown`. Without package data the effect never
        installs the updater, so nothing changes. */
    method Tick(now: int)
      modifies this
      ensures packageData.None? ==> timeLeft == old(timeLeft) && isExpired == old(isExpired)
      ensures packageData.Some? ==>
        var t := Remaining(now, packageData.value.purchaseTime);
        && isExpired == t.Expired?
        && timeLeft == Text(t)
        && (isExpired ==> timeLeft == ReleasedText)
    {
      if packageData.None? {
        return;
      }
      var t := Remaining(now, packageData.value.purchaseTime);
      if t.Expired? {
        timeLeft := ReleasedText;
        isExpired := true;
        return;
      }
      timeLeft := Text(t);
      isExpired := false;
    }
  }
}

=== FILE: financial_sections.dfy ===
/** The statement and the withdrawal forms (src/components/FinancialSections.tsx):
    the transaction labels of `ExtractSection`, and the two validation chains
    of `YieldSection` with the pending transaction each accepted request
    writes. */
module FinancialSections {
  import opened Common

  // ---------------------------------------------------------------------
  // Statement labels

  /** The two transaction types shown with the outgoing arrow. */
  predicate IsWithdrawalType(txType: string) {
    txType == "bonus_withdrawal" || txType == "yield_withdrawal"
  }

  /** `getTransactionType`: the two withdrawal types get a label, any other
      type is shown as it is. */
  function TransactionTypeLabel(txType: string): (shown: string)
    ensures shown != txType <==> IsWithdrawalType(txType)
    ensures IsWithdrawalType(txType) ==> TransactionTypeRead(shown) == txType
  {
    match txType
    case "bonus_withdrawal" => "Saque de Bônus"
    case "yield_withdrawal" => "Saque de Rendimento"
    case _ => txType
  }

  /** Which type a shown label stands for (the inverse of the labelling). */
  function TransactionTypeRead(shown: string): string {
    match shown
    case "Saque de Bônus" => "bonus_withdrawal"
    case "Saque de Rendimento" => "yield_withdrawal"
    case _ => shown
  }

  predicate IsKnownTransactionStatus(status: string) {
    status == "pending" || status == "completed" || status == "failed"
  }

  /** The text of the statement's `getStatusBadge`. */
  function TransactionStatusBadge(status: string): (badge: string)
    ensures badge == "Desconhecido" <==> !IsKnownTransactionStatus(status)
    ensures IsKnownTransactionStatus(status) ==> TransactionStatusRead(badge) == Some(status)
  {
    match status
    case "pending" => "Pendente"
    case "completed" => "Concluído"
    case "failed" => "Falhou"
    case _ => "Desconhecido"
  }

  function TransactionStatusRead(badge: string): Option<string> {
    match badge
    case "Pendente" => Some("pending")
    case "Concluído" => Some("completed")
    case "Falhou" => Some("failed")
    case _ => None
  }

  /** The wallet hash as listed: its first ten characters (the page then
      appends "..."). */
  function HashPreview(walletHash: string): (preview: string)
    ensures StartsWith(walletHash, preview)
    ensures |preview| == if |walletHash| < 10 then |walletHash| else 10
  {
    Prefix(walletHash, 10)
  }

  // ---------------------------------------------------------------------
  // Withdrawal validation

  const BonusMinMessage: string := "O valor mínimo para saque de bônus é 10 USDT."
  const BonusMaxMessage: string := "O valor máximo para saque de bônus é 500 USDT."
  const WalletMessage: string := "Por favor, informe a hash da carteira."
  const YieldAmountMessage: string := "Por favor, informe um valor válido."

  /** `handleBonusWithdrawal`'s checks: `amountText` is the field, `amount`
      its `parseFloat`. The first failing check names the message; `None`
      accepts. */
  function BonusWithdrawalError(amountText: string, amount: Number, wallet: string): (err: Option<string>)
    // a number is accepted exactly inside [10, 500], both ends included, with a wallet
    ensures amount.Num? ==>
      (err.None? <==> amountText != "" && 10.0 <= amount.value <= 500.0 && wallet != "")
    // text that is not a number fails neither bound
    ensures amount.NaN? ==> (err.None? <==> amountText != "" && wallet != "")
    // the amount checks come before the wallet check
    ensures amountText == "" || amount.Below(10.0) ==> err == Some(BonusMinMessage)
    ensures amountText != "" && amount.Above(500.0) ==> err == Some(BonusMaxMessage)
    ensures err == Some(WalletMessage) <==>
      amountText != "" && !amount.Below(10.0) && !amount.Above(500.0) && wallet == ""
  {
    if amountText == "" || amount.Below(10.0) then Some(BonusMinMessage)
    else if amount.Above(500.0) then Some(BonusMaxMessage)
    else if wallet == "" then Some(WalletMessage)
    else None
  }

  /** `handleYieldWithdrawal`'s checks: a positive amount, then a wallet;
      there is no upper bound. */
  function YieldWithdrawalError(amountText: string, amount: Number, wallet: string): (err: Option<string>)
    ensures amount.Num? ==> (err.None? <==> amountText != "" && amount.value > 0.0 && wallet != "")
    ensures amount.NaN? ==> (err.None? <==> amountText != "" && wallet != "")
    ensures amountText == "" || amount.AtMost(0.0) ==> err == Some(YieldAmountMessage)
    ensures err == Some(WalletMessage) <==> amountText != "" && !amount.AtMost(0.0) && wallet == ""
  {
    if amountText == "" || amount.AtMost(0.0) then Some(YieldAmountMessage)
    else if wallet == "" then Some(WalletMessage)
    else None
  }

  /** Any positive amount, however large, passes the yield checks. */
  lemma YieldHasNoUpperBound(amountText: string, x: real, wallet: string)
    requires amountText != "" && wallet != "" && x > 500.0
    ensures YieldWithdrawalError(amountText, Num(x), wallet).None?
    ensures BonusWithdrawalError(amountText, Num(x), wallet) == Some(BonusMaxMessage)
  {
  }

  // ---------------------------------------------------------------------
  // The written record

  /** A row of `transactions` as the forms insert it. */
  datatype Transaction = Transaction(userId: string, txType: string, amount: Number, walletHash: string, status: string)

  const ProcessErrorPrefix: string := "Erro ao processar saque: "

  /** The withdrawal form pair of `YieldSection`. Each handler takes the
      parsed amount, the signed-in user (if any) and the backend's answer to
      the insert; it returns the row it asked the backend to insert, if any. */
  class YieldSection {
    var bonusAmount: string
    var bonusWallet: string
    var yieldAmount: string
    var yieldWallet: string
    var loading: bool

    constructor ()
      ensures bonusAmount == "" && bonusWallet == "" && yieldAmount == "" && yieldWallet == "" && !loading
    {
      bonusAmount, bonusWallet, yieldAmount, yieldWallet := "", "", "", "";
      loading := false;
    }

    /** `handleBonusWithdrawal`. A rejected request writes nothing and
        changes nothing; an accepted one inserts one pending bonus
        withdrawal and clears the two fields only if the insert succeeded. */
    method HandleBonusWithdrawal(amount: Number, user: Option<string>, insert: WriteResult)
      returns (written: Option<Transaction>, toast: Toast)
      modifies this
      ensures yieldAmount == old(yieldAmount) && yieldWallet == old(yieldWallet)
      ensures var err := BonusWithdrawalError(old(bonusAmount), amount, old(bonusWallet));
        && (err.Some? ==>
              written.None? && toast == ErrorToast(err.value) && loading == old(loading)
              && bonusAmount == old(bonusAmount) && bonusWallet == old(bonusWallet))
        && (err.None? ==> !loading)
        && (err.None? && user.None? ==>
              written.None? && toast == NoToast
              && bonusAmount == old(bonusAmount) && bonusWallet == old(bonusWallet))
        && (err.None? && user.Some? ==>
              written == Some(Transaction(user.value, "bonus_withdrawal", amount, old(bonusWallet), "pending")))
        && (err.None? && user.Some? && insert.WriteOk? ==>
              toast == SuccessToast("Saque Solicitado!", "") && bonusAmount == "" && bonusWallet == "")
        && (err.None? && user.Some? && insert.WriteError? ==>
              toast == ErrorToast(ProcessErrorPrefix + insert.message)
              && bonusAmount == old(bonusAmount) && bonusWallet == old(bonusWallet))
    {
      var err := BonusWithdrawalError(bonusAmount, amount, bonusWallet);
      if err.Some? {
        return None, ErrorToast(err.value);
      }
      loading := true;
      if user.None? {
        loading := false;
        return None, NoToast;
      }
      written := Some(Transaction(user.value, "bonus_withdrawal", amount, bonusWallet, "pending"));
      if insert.WriteError? {
        toast := ErrorToast(ProcessErrorPrefix + insert.message);
        loading := false;
        return;
      }
      toast := SuccessToast("Saque Solicitado!", "");
      bonusAmount := "";
      bonusWallet := "";
      loading := false;
    }

    /** `handleYieldWithdrawal`: the same flow with the yield checks and a
        pending yield withdrawal. */
    method HandleYieldWithdrawal(amount: Number, user: Option<string>, insert: WriteResult)
      returns (written: Option<Transaction>, toast: Toast)
      modifies this
      ensures bonusAmount == old(bonusAmount) && bonusWallet == old(bonusWallet)
      ensures var err := YieldWithdrawalError(old(yieldAmount), amount, old(yieldWallet));
        && (err.Some? ==>
              written.None? && toast == ErrorToast(err.value) && loading == old(loading)
              && yieldAmount == old(yieldAmount) && yieldWallet == old(yieldWallet))
        && (err.None? ==> !loading)
        && (err.None? && user.None? ==>
              written.None? && toast == NoToast
              && yieldAmount == old(yieldAmount) && yieldWallet == old(yieldWallet))
        && (err.None? && user.Some? ==>
              written == Some(Transaction(user.value, "yield_withdrawal", amount, old(yieldWallet), "pending")))
        && (err.None? && user.Some? && insert.WriteOk? ==>
              toast == SuccessToast("Saque Solicitado!", "") && yieldAmount == "" && yieldWallet == "")
        && (err.None? && user.Some? && insert.WriteError? ==>
              toast == ErrorToast(ProcessErrorPrefix + insert.message)
              && yieldAmount == old(yieldAmount) && yieldWallet == old(yieldWallet))
    {
      var err := YieldWithdrawalError(yieldAmount, amount, yieldWallet);
      if err.Some? {
        return None, ErrorToast(err.value);
      }
      loading := true;
      if user.None? {
        loading := false;
        return None, NoToast;
      }
      written := Some(Transaction(user.value, "yield_withdrawal", amount, yieldWallet, "pending"));
      if insert.WriteError? {
        toast := ErrorToast(ProcessErrorPrefix + insert.message);
        loading := false;
        return;
      }
      toast := SuccessToast("Saque Solicitado!", "");
      yieldAmount := "";
      yieldWallet := "";
      loading := false;
    }
  }

  /** A statement row as fetched. */
  datatype StatementRow = StatementRow(id: string, txType: string, amount: real, walletHash: string, status: string)

  /** `ExtractSection`'s list and loading flag. */
  class ExtractSection {
    var transactions: seq<StatementRow>
    var loading: bool

    constructor ()
      ensures transactions == [] && loading
    {
      transactions := [];
      loading := true;
    }

    /** `fetchTransactions`: the list is replaced only by a successful read
        for a signed-in user; loading ends on every path. */
    method FetchTransactions(hasUser: bool, result: Fetch<seq<StatementRow>>)
      modifies this
      ensures !loading
      ensures transactions == if hasUser && result.Fetched? then result.rows else old(transactions)
    {
      if hasUser && result.Fetched? {
        transactions := result.rows;
      }
      loading := false;
    }
  }
}

=== FILE: header.dfy ===
/** The top bar (src/components/Header.tsx): the profile it loads while
    signed in, and the name and avatar letter it shows. */
module Header {
  import opened Common

  /** The part of the profile the bar reads. */
  datatype HeaderProfile = HeaderProfile(name: Option<string>, avatarUrl: Option<string>)

  /** `user.email?.split('@')[0] || ''`. */
  function FallbackName(email: Option<string>): (name: string)
    ensures email.None? ==> name == ""
    ensures email.Some? ==> StartsWith(email.value, name) && !Contains(name, '@')
    // the whole address when it has no '@', else the text before the first one
    ensures email.Some? && !Contains(email.value, '@') ==> name == email.value
    ensures email.Some? && Contains(email.value, '@') ==> email.value[|name|] == '@'
  {
    match email
    case None => ""
    case Some(e) =>
      var name := BeforeFirst(e, '@');
      assert |name| < |e| ==> e[|name|] == '@';
      name
  }

  /** The profile set when the read fails: the fallback name and no avatar. */
  function FallbackProfile(email: Option<string>): (profile: HeaderProfile)
    ensures profile.avatarUrl.None?
    ensures profile.name == Some(FallbackName(email))
  {
    HeaderProfile(Some(FallbackName(email)), None)
  }

  /** `userProfile?.name || userEmail`. */
  function DisplayName(profile: Option<HeaderProfile>, userEmail: string): (shown: string)
    ensures shown == userEmail || (profile.Some? && profile.value.name == Some(shown) && shown != "")
    ensures profile.Some? && profile.value.name.Some? && profile.value.name.value != "" ==>
      shown == profile.value.name.value
  {
    match profile
    case Some(HeaderProfile(Some(name), _)) => if name != "" then name else userEmail
    case _ => userEmail
  }

  /** After a failed read the bar shows the part of the address before '@',
      or the whole address when that part is empty. */
  lemma FailedReadShowsLocalPart(email: string)
    ensures DisplayName(Some(FallbackProfile(Some(email))), email)
         == if FallbackName(Some(email)) != "" then FallbackName(Some(email)) else email
  {
  }

  /** ASCII `toUpperCase` of one character. */
  function UpperAscii(c: char): (u: char)
    ensures 'a' <= c <= 'z' ==> 'A' <= u <= 'Z' && u as int == c as int - 32
    ensures !('a' <= c <= 'z') ==> u == c
  {
    if 'a' <= c <= 'z' then (c as int - 32) as char else c
  }

  /** `userProfile?.name?.charAt(0) || userEmail?.charAt(0)?.toUpperCase() || 'U'`:
      always a single character. */
  function AvatarInitial(profile: Option<HeaderProfile>, userEmail: string): (initial: string)
    ensures |initial| == 1
    ensures profile.Some? && profile.value.name.Some? && profile.value.name.value != "" ==>
      initial == [profile.value.name.value[0]]
    ensures !(profile.Some? && profile.value.name.Some? && profile.value.name.value != "") ==>
      initial == (if userEmail != "" then [UpperAscii(userEmail[0])] else "U")
  {
    match profile
    case Some(HeaderProfile(Some(name), _)) =>
      if name != "" then [name[0]]
      else if userEmail != "" then [UpperAscii(userEmail[0])]
      else "U"
    case _ =>
      if userEmail != "" then [UpperAscii(userEmail[0])] else "U"
  }

  /** The initial is the first character of the name on display, upper-cased
      when it comes from the email. */
  lemma InitialStartsDisplayName(profile: Option<HeaderProfile>, userEmail: string)
    requires DisplayName(profile, userEmail) != ""
    ensures var shown := DisplayName(profile, userEmail);
            AvatarInitial(profile, userEmail) == [shown[0]]
            || AvatarInitial(profile, userEmail) == [UpperAscii(shown[0])]
  {
  }

  class HeaderBar {
    var userProfile: Option<HeaderProfile>

    constructor ()
      ensures userProfile.None?
    {
      userProfile := None;
    }

    /** The effect on `isLoggedIn`: the profile is read only while signed in. */
    method OnLoginState(isLoggedIn: bool, user: Option<AuthUser>, read: Fetch<HeaderProfile>)
      modifies this
      ensures !isLoggedIn ==> userProfile == old(userProfile)
      ensures isLoggedIn ==> userProfile == FetchedProfile(old(userProfile), user, read)
    {
      if isLoggedIn {
        FetchUserProfile(user, read);
      }
    }

    /** `fetchUserProfile`: any failed read, a missing row included, gives
        the fallback profile. */
    method FetchUserProfile(user: Option<AuthUser>, read: Fetch<HeaderProfile>)
      modifies this
      ensures userProfile == FetchedProfile(old(userProfile), user, read)
    {
      if user.None? {
        return;
      }
      match read {
        case FetchError(_, _) =>
          userProfile := Some(FallbackProfile(user.value.email));
        case Fetched(row) =>
          userProfile := Some(row);
      }
    }
  }

  /** The profile after one `fetchUserProfile`. */
  function FetchedProfile(current: Option<HeaderProfile>, user: Option<AuthUser>, read: Fetch<HeaderProfile>): (next: Option<HeaderProfile>)
    ensures user.None? ==> next == current
    ensures user.Some? ==> next.Some?
    ensures user.Some? && read.FetchError? ==> next.value.avatarUrl.None?
  {
    match user
    case None => current
    case Some(u) =>
      match read
      case FetchError(_, _) => Some(FallbackProfile(u.email))
      case Fetched(row) => Some(row)
  }
}

=== FILE: index_page.dfy ===
/** The page shell (src/pages/Index.tsx): the session flags, the section on
    display, the `ref` parameter of the address, and which of the three
    screens (sign-in form, home page, application) is shown. */
module IndexPage {
  import opened Common
  import AuthPage

  // ---------------------------------------------------------------------
  // The section on display

  /** What `renderMainContent` puts in the main area. */
  datatype Content =
    | Dashboard | BuyPackage | MyPackages | Referrals | Statement
    | Yields | WithdrawalData | WithdrawalPin | ProfileForm

  /** The section name under which each content is shown. */
  function SectionName(content: Content): string {
    match content
    case Dashboard => "painel"
    case BuyPackage => "comprar-pacote"
    case MyPackages => "meus-pacotes"
    case Referrals => "indicados"
    case Statement => "extrato"
    case Yields => "rendimentos"
    case WithdrawalData => "dados-recebimento"
    case WithdrawalPin => "pin-saque"
    case ProfileForm => "perfil"
  }

  const SectionNames: set<string> := {
    "painel", "comprar-pacote", "meus-pacotes", "indicados", "extrato",
    "rendimentos", "dados-recebimento", "pin-saque", "perfil" }

  /** `renderMainContent`: a known section shows its own content; any other
      name falls back to the dashboard. */
  function RenderMainContent(section: string): (content: Content)
    ensures section in SectionNames ==> SectionName(content) == section
    ensures section !in SectionNames ==> content == Dashboard
  {
    match section
    case "painel" => Dashboard
    case "comprar-pacote" => BuyPackage
    case "meus-pacotes" => MyPackages
    case "indicados" => Referrals
    case "extrato" => Statement
    case "rendimentos" => Yields
    case "dados-recebimento" => WithdrawalData
    case "pin-saque" => WithdrawalPin
    case "perfil" => ProfileForm
    case _ => Dashboard
  }

  /** Every content is reachable, through its own section name. */
  lemma RenderSectionName(content: Content)
    ensures SectionName(content) in SectionNames
    ensures RenderMainContent(SectionName(content)) == content
  {
  }

  // ---------------------------------------------------------------------
  // The `ref` parameter

  /** `new URLSearchParams(query).get(name)` on a query without its '?':
      the value of the first `name=value` pair, pairs split on '&' and each
      pair on its first '='. */
  function QueryParam(query: string, name: string): (value: Option<string>)
    ensures value.Some? ==> !Contains(value.value, '&') && |value.value| < |query|
    decreases |query|
  {
    if query == [] then None
    else
      var pair := BeforeFirst(query, '&');
      var key := BeforeFirst(pair, '=');
      if key == name then Some(if |key| < |pair| then pair[|key| + 1..] else [])
      else if |pair| < |query| then QueryParam(query[|pair| + 1..], name)
      else None
  }

  /** The same on `location.search`, whose leading '?' is dropped. */
  function SearchParam(search: string, name: string): (value: Option<string>)
    ensures value.Some? ==> !Contains(value.value, '&')
  {
    QueryParam(if StartsWith(search, "?") then search[1..] else search, name)
  }

  lemma PairHasNoSeparator(key: string, value: string)
    requires !Contains(key, '&') && !Contains(key, '=') && !Contains(value, '&')
    ensures !Contains(key + "=" + value, '&')
  {
    var pair := key + "=" + value;
    forall i | 0 <= i < |pair| ensures pair[i] != '&' {
      if i < |key| {
        assert pair[i] == key[i];
      } else if i > |key| {
        assert pair[i] == value[i - |key| - 1];
      }
    }
  }

  /** A pair followed by others: its value when it has the name sought,
      else the lookup goes on in the rest. */
  lemma PairLookup(key: string, value: string, rest: string, name: string)
    requires !Contains(key, '&') && !Contains(key, '=') && !Contains(value, '&')
    ensures QueryParam(key + "=" + value + "&" + rest, name)
         == if key == name then Some(value) else QueryParam(rest, name)
  {
    var pair := key + "=" + value;
    var query := key + "=" + value + "&" + rest;
    PairHasNoSeparator(key, value);
    assert query == pair + ("&" + rest);
    BeforeFirstOfPrefix(pair, "&" + rest, '&');
    assert pair == key + ("=" + value);
    BeforeFirstOfPrefix(key, "=" + value, '=');
    assert pair[|key| + 1..] == value;
    assert query[|pair| + 1..] == rest;
  }

  /** The last pair of the query. */
  lemma LastPairLookup(key: string, value: string, name: string)
    requires !Contains(key, '&') && !Contains(key, '=') && !Contains(value, '&')
    ensures QueryParam(key + "=" + value, name) == if key == name then Some(value) else None
  {
    var pair := key + "=" + value;
    PairHasNoSeparator(key, value);
    assert pair == key + ("=" + value);
    BeforeFirstOfPrefix(key, "=" + value, '=');
    assert pair[|key| + 1..] == value;
  }

  /** The address a referral link opens carries the referrer's username
      back: `ReferralLink(origin, username)` ends in the search "?ref="
      followed by the username, and that search gives the username. */
  lemma ReferralLinkRoundTrip(origin: string, username: string)
    requires !Contains(username, '&')
    ensures ReferralLink(origin, username) == origin + "/" + ("?ref=" + username)
    ensures SearchParam("?ref=" + username, "ref") == Some(username)
  {
    var query := "ref" + "=" + username;
    assert !Contains("ref", '&') && !Contains("ref", '=');
    LastPairLookup("ref", username, "ref");
    SearchDropsMark("?ref=" + username, query);
  }

  lemma SearchDropsMark(search: string, query: string)
    requires search == "?" + query
    ensures forall name :: SearchParam(search, name) == QueryParam(query, name)
  {
    assert StartsWith(search, "?") && search[1..] == query;
  }

  // ---------------------------------------------------------------------
  // The shell

  /** The screen on display. */
  datatype Screen =
    | SignInScreen(mode: AuthPage.AuthMode)
    | HomeScreen
    | AppScreen(headerKey: int, email: string, content: Content)

  /** `session.user.email || ''`. */
  function SessionEmail(user: AuthUser): (email: string)
    ensures user.email.Some? ==> email == user.email.value
    ensures user.email.None? ==> email == ""
  {
    match user.email
    case Some(e) => e
    case None => ""
  }

  class Shell {
    var isLoggedIn: bool
    var userEmail: string
    var activeSection: string
    var userPackage: Option<PackageData>
    var isFinanceExpanded: bool
    var showAuth: bool
    var authMode: AuthPage.AuthMode
    /** The key of the header, bumped to make it read the profile again. */
    var profileUpdated: int

    /** The sign-in form wins over everything; then a visitor sees the
        home page; a signed-in user sees the application. */
    function Displayed(): (screen: Screen)
      reads this
      ensures showAuth <==> screen.SignInScreen?
      ensures screen.SignInScreen? ==> screen.mode == authMode
      ensures screen.HomeScreen? <==> !showAuth && !isLoggedIn
      ensures screen.AppScreen? ==> screen.email == userEmail && screen.content == RenderMainContent(activeSection)
    {
      if showAuth then SignInScreen(authMode)
      else if !isLoggedIn then HomeScreen
      else AppScreen(profileUpdated, userEmail, RenderMainContent(activeSection))
    }

    constructor ()
      ensures !isLoggedIn && userEmail == "" && activeSection == "painel" && userPackage.None?
      ensures !isFinanceExpanded && !showAuth && authMode == AuthPage.Login && profileUpdated == 0
      ensures Displayed() == HomeScreen
    {
      isLoggedIn, userEmail, activeSection, userPackage := false, "", "painel", None;
      isFinanceExpanded, showAuth, authMode, profileUpdated := false, false, AuthPage.Login, 0;
    }

    /** `checkSession` on mount: an existing session signs the page in. */
    method CheckSession(session: Option<AuthUser>)
      modifies this
      ensures session.Some? ==> isLoggedIn && userEmail == SessionEmail(session.value)
      ensures session.None? ==> isLoggedIn == old(isLoggedIn) && userEmail == old(userEmail)
      ensures activeSection == old(activeSection) && userPackage == old(userPackage)
      ensures isFinanceExpanded == old(isFinanceExpanded) && showAuth == old(showAuth)
      ensures authMode == old(authMode) && profileUpdated == old(profileUpdated)
    {
      if session.Some? {
        isLoggedIn := true;
        userEmail := SessionEmail(session.value);
      }
    }

    /** The `onAuthStateChange` listener: a session signs in, closes the
        sign-in form and bumps the header key; no session signs out. */
    method OnAuthStateChange(session: Option<AuthUser>)
      modifies this
      ensures session.Some? ==> isLoggedIn && userEmail == SessionEmail(session.value) && !showAuth
      ensures session.Some? ==> profileUpdated == old(profileUpdated) + 1
      ensures session.Some? ==> Displayed() == AppScreen(old(profileUpdated) + 1, SessionEmail(session.value),
                                                         RenderMainContent(old(activeSection)))
      ensures session.None? ==> !isLoggedIn && userEmail == "" && showAuth == old(showAuth)
      ensures session.None? ==> profileUpdated == old(profileUpdated)
      ensures activeSection == old(activeSection) && userPackage == old(userPackage)
      ensures isFinanceExpanded == old(isFinanceExpanded) && authMode == old(authMode)
    {
      if session.Some? {
        isLoggedIn := true;
        userEmail := SessionEmail(session.value);
        showAuth := false;
        profileUpdated := profileUpdated + 1;
      } else {
        isLoggedIn := false;
        userEmail := "";
      }
    }

    /** `checkReferralParam`: `search` is `location.search`; `stored` is the
        code saved for the registration, when the parameter is non-empty,
        and then the registration form opens. */
    method CheckReferralParam(search: string) returns (stored: Option<string>)
      modifies this
      ensures var code := SearchParam(search, "ref");
        stored == if code.Some? && code.value != "" then code else None
      ensures stored.Some? ==> authMode == AuthPage.Register && showAuth
      ensures stored.Some? ==> Displayed() == SignInScreen(AuthPage.Register)
      ensures stored.None? ==> authMode == old(authMode) && showAuth == old(showAuth)
      ensures isLoggedIn == old(isLoggedIn) && userEmail == old(userEmail)
      ensures activeSection == old(activeSection) && userPackage == old(userPackage)
      ensures isFinanceExpanded == old(isFinanceExpanded) && profileUpdated == old(profileUpdated)
    {
      var code := SearchParam(search, "ref");
      stored := None;
      if code.Some? && code.value != "" {
        stored := code;
        authMode := AuthPage.Register;
        showAuth := true;
      }
    }

    /** `handleLogin`, the sign-in form's `onLogin`. */
    method HandleLogin(email: string)
      modifies this
      ensures isLoggedIn && userEmail == email && !showAuth
      ensures Displayed() == AppScreen(profileUpdated, email, RenderMainContent(activeSection))
      ensures activeSection == old(activeSection) && userPackage == old(userPackage)
      ensures isFinanceExpanded == old(isFinanceExpanded) && authMode == old(authMode)
      ensures profileUpdated == old(profileUpdated)
    {
      isLoggedIn := true;
      userEmail := email;
      showAuth := false;
    }

    /** `handleLogout`: back to the home page, and to the dashboard for the
        next sign-in. */
    method HandleLogout()
      modifies this
      ensures !isLoggedIn && userEmail == "" && activeSection == "painel" && !showAuth
      ensures Displayed() == HomeScreen
      ensures userPackage == old(userPackage) && isFinanceExpanded == old(isFinanceExpanded)
      ensures authMode == old(authMode) && profileUpdated == old(profileUpdated)
    {
      isLoggedIn := false;
      userEmail := "";
      activeSection := "painel";
      showAuth := false;
    }

    /** `handlePackagePurchase`. */
    method HandlePackagePurchase(packageData: PackageData)
      modifies this
      ensures userPackage == Some(packageData)
      ensures isLoggedIn == old(isLoggedIn) && userEmail == old(userEmail)
      ensures activeSection == old(activeSection) && isFinanceExpanded == old(isFinanceExpanded)
      ensures showAuth == old(showAuth) && authMode == old(authMode)
      ensures profileUpdated == old(profileUpdated)
    {
      userPackage := Some(packageData);
    }

    /** The sidebar's `onSectionChange`. */
    method HandleSectionChange(section: string)
      modifies this
      ensures activeSection == section
      ensures isLoggedIn == old(isLoggedIn) && userEmail == old(userEmail)
      ensures userPackage == old(userPackage) && isFinanceExpanded == old(isFinanceExpanded)
      ensures showAuth == old(showAuth) && authMode == old(authMode)
      ensures profileUpdated == old(profileUpdated)
    {
      activeSection := section;
    }

    /** `handleProfileClick`: the header's profile entry opens the profile
        form. */
    method HandleProfileClick()
      modifies this
      ensures activeSection == "perfil"
      ensures isLoggedIn && !showAuth ==> Displayed().content == ProfileForm
      ensures isLoggedIn == old(isLoggedIn) && userEmail == old(userEmail)
      ensures userPackage == old(userPackage) && isFinanceExpanded == old(isFinanceExpanded)
      ensures showAuth == old(showAuth) && authMode == old(authMode)
      ensures profileUpdated == old(profileUpdated)
    {
      activeSection := "perfil";
    }

    /** `handleProfileUpdate`: a new header key, so the header reads the
        saved profile again. */
    method HandleProfileUpdate()
      modifies this
      ensures profileUpdated == old(profileUpdated) + 1
      ensures isLoggedIn == old(isLoggedIn) && userEmail == old(userEmail)
      ensures activeSection == old(activeSection) && userPackage == old(userPackage)
      ensures isFinanceExpanded == old(isFinanceExpanded) && showAuth == old(showAuth)
      ensures authMode == old(authMode)
    {
      profileUpdated := profileUpdated + 1;
    }

    /** `handleFinanceToggle`. */
    method HandleFinanceToggle()
      modifies this
      ensures isFinanceExpanded == !old(isFinanceExpanded)
      ensures isLoggedIn == old(isLoggedIn) && userEmail == old(userEmail)
      ensures activeSection == old(activeSection) && userPackage == old(userPackage)
      ensures showAuth == old(showAuth) && authMode == old(authMode)
      ensures profileUpdated == old(profileUpdated)
    {
      isFinanceExpanded := !isFinanceExpanded;
    }

    /** `handleLoginClick` and `handleRegisterClick`: the home page's
        buttons open the sign-in form in the mode named. */
    method OpenAuth(mode: AuthPage.AuthMode)
      modifies this
      ensures authMode == mode && showAuth
      ensures Displayed() == SignInScreen(mode)
      ensures isLoggedIn == old(isLoggedIn) && userEmail == old(userEmail)
      ensures activeSection == old(activeSection) && userPackage == old(userPackage)
      ensures isFinanceExpanded == old(isFinanceExpanded) && profileUpdated == old(profileUpdated)
    {
      authMode := mode;
      showAuth := true;
    }
  }
}

=== FILE: my_packages.dfy ===
/** The package list (src/components/MyPackagesSection.tsx): time left on an
    active package (20 days from activation), the daily-yield rows grouped
    per package, the status texts, and deleting a package. */
module MyPackages {
  import opened Common

  /** The list counts 20 days from activation (the countdown card uses 21). */
  const MaturityDays: int := 20
  const MaturityMs: int := 20 * 24 * 60 * 60 * 1000

  const ReleasedText: string := "Liberado!"

  datatype TimeLeft = Released | Left(days: nat, hours: nat, minutes: nat)

  function Milliseconds(t: TimeLeft): int {
    match t
    case Released => 0
    case Left(d, h, m) => d * 86_400_000 + h * 3_600_000 + m * 60_000
  }

  /** `calculateTimeRemaining(activationDate)` at time `now`, where
      `activationMs` is the instant the date text stands for. No result for
      an empty date; released from 20 days after activation on; otherwise
      whole days, hours and minutes that add up to the time left with less
      than a minute over. */
  function TimeRemaining(activationDate: string, activationMs: int, now: int): (r: Option<TimeLeft>)
    ensures r.None? <==> activationDate == ""
    ensures r == Some(Released) <==> activationDate != "" && now >= activationMs + MaturityMs
    ensures r.Some? && r.value.Left? ==>
      var t := r.value;
      && t.hours < 24 && t.minutes < 60
      && Milliseconds(t) <= activationMs + MaturityMs - now < Milliseconds(t) + 60_000
  {
    if activationDate == "" then None
    else
      var diff := activationMs + MaturityMs - now;
      if diff <= 0 then Some(Released)
      else
        ClockArithmetic(diff);
        Some(Left(diff / (1000 * 60 * 60 * 24),
                  (diff / (1000 * 60 * 60)) % 24,
                  (diff / (1000 * 60)) % 60))
  }

  lemma ClockArithmetic(x: int)
    requires x > 0
    ensures var d, h, m := x / 86_400_000, (x / 3_600_000) % 24, (x / 60_000) % 60;
            && d * 86_400_000 + h * 3_600_000 + m * 60_000 <= x
            && x < d * 86_400_000 + h * 3_600_000 + m * 60_000 + 60_000
  {
    var hours, minutes := x / 3_600_000, x / 60_000;
    var d, h := x / 86_400_000, hours % 24;
    DivUnique(x, 86_400_000, hours / 24, (hours % 24) * 3_600_000 + x % 3_600_000);
    var m := minutes % 60;
    DivUnique(x, 3_600_000, minutes / 60, m * 60_000 + x % 60_000);
  }

  /** `${days}d ${hours}h ${minutes}m`, unpadded and without seconds. */
  function Text(t: TimeLeft): string {
    match t
    case Released => ReleasedText
    case Left(d, h, m) => Decimal(d) + "d " + Decimal(h) + "h " + Decimal(m) + "m"
  }

  /** A live text ends in the minutes field: it carries no seconds. */
  lemma TextHasNoSeconds(t: TimeLeft)
    requires t.Left?
    ensures Text(t)[|Text(t)| - 1] == 'm' && !Contains(Text(t), 's')
  {
    var d, h, m := Decimal(t.days), Decimal(t.hours), Decimal(t.minutes);
    var s := Text(t);
    assert s == d + "d " + h + "h " + m + "m";
    forall i | 0 <= i < |s| ensures s[i] != 's' {
      if i < |d| {
        assert s[i] == d[i];
      } else if i < |d| + 2 {
        assert s[i] == "d "[i - |d|];
      } else if i < |d| + 2 + |h| {
        assert s[i] == h[i - |d| - 2];
      } else if i < |d| + 4 + |h| {
        assert s[i] == "h "[i - |d| - 2 - |h|];
      } else if i < |d| + 4 + |h| + |m| {
        assert s[i] == m[i - |d| - 4 - |h|];
      }
    }
  }

  // ---------------------------------------------------------------------
  // Daily yields grouped by package

  /** A row as fetched from `daily_yields`; `yieldDate` is the day stamp the
      date text stands for (ISO dates order the same way). */
  datatype YieldRow = YieldRow(packageId: string, yieldAmount: real, yieldDate: int)

  datatype DailyYield = DailyYield(yieldAmount: real, yieldDate: int)

  function Entry(row: YieldRow): DailyYield {
    DailyYield(row.yieldAmount, row.yieldDate)
  }

  /** The rows of one package, in input order (the specification of a group). */
  function RowsOf(rows: seq<YieldRow>, packageId: string): seq<DailyYield> {
    if rows == [] then []
    else
      var last := rows[|rows| - 1];
      RowsOf(rows[..|rows| - 1], packageId) + (if last.packageId == packageId then [Entry(last)] else [])
  }

  function PackageIds(rows: seq<YieldRow>): set<string> {
    set row | row in rows :: row.packageId
  }

  /** The `forEach` of `fetchDailyYields`: one group per package id present,
      holding that package's rows in input order. */
  method GroupYields(rows: seq<YieldRow>) returns (groups: map<string, seq<DailyYield>>)
    ensures groups.Keys == PackageIds(rows)
    ensures forall id :: id in groups ==> groups[id] == RowsOf(rows, id)
  {
    groups := map[];
    var i := 0;
    while i < |rows|
      invariant 0 <= i <= |rows|
      invariant groups.Keys == PackageIds(rows[..i])
      invariant forall id :: id in groups ==> groups[id] == RowsOf(rows[..i], id)
    {
      var row := rows[i];
      assert rows[..i + 1][..i] == rows[..i];
      if row.packageId !in groups {
        GroupNonEmptyIffPresent(rows[..i], row.packageId);
        groups := groups[row.packageId := []];
      }
      assert forall id ::
        RowsOf(rows[..i + 1], id) == RowsOf(rows[..i], id) + (if row.packageId == id then [Entry(row)] else []);
      groups := groups[row.packageId := groups[row.packageId] + [Entry(row)]];
      i := i + 1;
    }
    assert rows[..i] == rows;
  }

  /** A package has a non-empty group exactly when one of its rows was fetched. */
  lemma {:induction false} GroupNonEmptyIffPresent(rows: seq<YieldRow>, id: string)
    ensures |RowsOf(rows, id)| > 0 <==> id in PackageIds(rows)
  {
    if rows != [] {
      var init := rows[..|rows| - 1];
      GroupNonEmptyIffPresent(init, id);
      assert rows == init + [rows[|rows| - 1]];
      assert PackageIds(rows) == PackageIds(init) + {rows[|rows| - 1].packageId};
    }
  }

  predicate NewestFirst(s: seq<DailyYield>) {
    forall i, j :: 0 <= i < j < |s| ==> s[i].yieldDate >= s[j].yieldDate
  }

  predicate RowsNewestFirst(rows: seq<YieldRow>) {
    forall i, j :: 0 <= i < j < |rows| ==> rows[i].yieldDate >= rows[j].yieldDate
  }

  /** Rows fetched newest first give groups that are newest first. */
  lemma {:induction false} GroupKeepsOrder(rows: seq<YieldRow>, id: string)
    requires RowsNewestFirst(rows)
    ensures NewestFirst(RowsOf(rows, id))
  {
    if rows != [] {
      var init, last := rows[..|rows| - 1], rows[|rows| - 1];
      GroupKeepsOrder(init, id);
      GroupDatesBounded(init, id, last.yieldDate);
    }
  }

  lemma {:induction false} GroupDatesBounded(rows: seq<YieldRow>, id: string, bound: int)
    requires forall i :: 0 <= i < |rows| ==> rows[i].yieldDate >= bound
    ensures forall k :: 0 <= k < |RowsOf(rows, id)| ==> RowsOf(rows, id)[k].yieldDate >= bound
  {
    if rows != [] {
      GroupDatesBounded(rows[..|rows| - 1], id, bound);
    }
  }

  /** Total size of the groups named in `ids`. */
  function SizeOfGroups(rows: seq<YieldRow>, ids: seq<string>): nat {
    if ids == [] then 0 else |RowsOf(rows, ids[0])| + SizeOfGroups(rows, ids[1..])
  }

  /** How many times `id` is listed in `ids`. */
  function Occurrences(ids: seq<string>, id: string): nat {
    if ids == [] then 0 else (if ids[0] == id then 1 else 0) + Occurrences(ids[1..], id)
  }

  /** Every row lands in exactly one group: over the distinct package ids
      present, the group sizes add up to the number of rows. */
  lemma {:induction false} GroupSizesSum(rows: seq<YieldRow>, ids: seq<string>)
    requires forall i, j :: 0 <= i < j < |ids| ==> ids[i] != ids[j]
    requires PackageIds(rows) <= set k | 0 <= k < |ids| :: ids[k]
    ensures SizeOfGroups(rows, ids) == |rows|
  {
    if rows != [] {
      var init, last := rows[..|rows| - 1], rows[|rows| - 1];
      assert rows == init + [last];
      assert PackageIds(init) <= PackageIds(rows);
      GroupSizesSum(init, ids);
      SizeAfterOneRow(init, last, ids);
      assert last.packageId in PackageIds(rows);
      OccursOnce(ids, last.packageId);
    } else {
      SizeOfNoRows(ids);
    }
  }

  lemma {:induction false} SizeOfNoRows(ids: seq<string>)
    ensures SizeOfGroups([], ids) == 0
  {
    if ids != [] {
      SizeOfNoRows(ids[1..]);
    }
  }

  lemma {:induction false} SizeAfterOneRow(init: seq<YieldRow>, last: YieldRow, ids: seq<string>)
    ensures SizeOfGroups(init + [last], ids) == SizeOfGroups(init, ids) + Occurrences(ids, last.packageId)
  {
    if ids != [] {
      var rows := init + [last];
      assert rows[..|rows| - 1] == init;
      SizeAfterOneRow(init, last, ids[1..]);
    }
  }

  lemma {:induction false} OccursOnce(ids: seq<string>, id: string)
    requires forall i, j :: 0 <= i < j < |ids| ==> ids[i] != ids[j]
    requires id in set k | 0 <= k < |ids| :: ids[k]
    ensures Occurrences(ids, id) == 1
  {
    if ids[0] == id {
      NoOccurrence(ids[1..], id);
    } else {
      var k :| 0 <= k < |ids| && ids[k] == id;
      assert ids[1..][k - 1] == id;
      OccursOnce(ids[1..], id);
    }
  }

  lemma {:induction false} NoOccurrence(ids: seq<string>, id: string)
    requires forall k :: 0 <= k < |ids| ==> ids[k] != id
    ensures Occurrences(ids, id) == 0
  {
    if ids != [] {
      NoOccurrence(ids[1..], id);
    }
  }

  // ---------------------------------------------------------------------
  // Status texts

  predicate IsKnownStatus(status: string) {
    status == "pending" || status == "active" || status == "completed"
  }

  /** The text of `getStatusBadge`. */
  function StatusBadge(status: string): (badge: string)
    ensures badge == "Desconhecido" <==> !IsKnownStatus(status)
    ensures IsKnownStatus(status) ==> StatusBadgeRead(badge) == Some(status)
  {
    match status
    case "pending" => "Pendente"
    case "active" => "Ativo"
    case "completed" => "Concluído"
    case _ => "Desconhecido"
  }

  /** Which known status a badge text stands for. */
  function StatusBadgeRead(badge: string): Option<string> {
    match badge
    case "Pendente" => Some("pending")
    case "Ativo" => Some("active")
    case "Concluído" => Some("completed")
    case _ => None
  }

  /** `getStatusDescription`. */
  function StatusDescription(status: string): (text: string)
    ensures text == "Status não identificado" <==> !IsKnownStatus(status)
    ensures IsKnownStatus(status) ==> StatusDescriptionRead(text) == Some(status)
  {
    match status
    case "pending" => "Aguardando confirmação do pagamento..."
    case "active" => "Pacote ativo e gerando rendimentos de 10% ao dia"
    case "completed" => "Rendimento liberado para saque"
    case _ => "Status não identificado"
  }

  function StatusDescriptionRead(text: string): Option<string> {
    match text
    case "Aguardando confirmação do pagamento..." => Some("pending")
    case "Pacote ativo e gerando rendimentos de 10% ao dia" => Some("active")
    case "Rendimento liberado para saque" => Some("completed")
    case _ => None
  }

  // ---------------------------------------------------------------------
  // Packages and deleting one

  datatype PackageRow = PackageRow(
    id: string, amount: real, status: string,
    activationDate: string, activationMs: int, dailyYield: real, totalYield: real)

  /** The delete button is rendered only on pending packages. */
  predicate DeleteOffered(pkg: PackageRow) {
    pkg.status == "pending"
  }

  /** The backend's `delete().eq('id', id)` on the package table. */
  function DeleteById(table: seq<PackageRow>, id: string): (r: seq<PackageRow>)
    ensures forall k :: 0 <= k < |r| ==> r[k].id != id && r[k] in table
    ensures forall row :: row in table && row.id != id ==> row in r
    ensures |r| <= |table|
  {
    if table == [] then []
    else if table[0].id == id then DeleteById(table[1..], id)
    else [table[0]] + DeleteById(table[1..], id)
  }

  /** Deleting through the button (offered only on a pending package whose
      id no other row shares) removes that one pending package and nothing else. */
  lemma DeleteThroughButton(table: seq<PackageRow>, k: nat)
    requires k < |table| && DeleteOffered(table[k])
    requires forall j :: 0 <= j < |table| && j != k ==> table[j].id != table[k].id
    ensures |DeleteById(table, table[k].id)| == |table| - 1
    ensures table[k] !in DeleteById(table, table[k].id)
  {
    DeleteCount(table, table[k].id);
    assert OccurrencesOfId(table, table[k].id) == 1 by {
      IdCountOne(table, k);
    }
  }

  function OccurrencesOfId(table: seq<PackageRow>, id: string): nat {
    if table == [] then 0 else (if table[0].id == id then 1 else 0) + OccurrencesOfId(table[1..], id)
  }

  lemma {:induction false} DeleteCount(table: seq<PackageRow>, id: string)
    ensures |DeleteById(table, id)| == |table| - OccurrencesOfId(table, id)
  {
    if table != [] {
      DeleteCount(table[1..], id);
    }
  }

  lemma {:induction false} IdCountOne(table: seq<PackageRow>, k: nat)
    requires k < |table|
    requires forall j :: 0 <= j < |table| && j != k ==> table[j].id != table[k].id
    ensures OccurrencesOfId(table, table[k].id) == 1
  {
    if k == 0 {
      IdCountZero(table[1..], table[0].id);
    } else {
      IdCountOne(table[1..], k - 1);
    }
  }

  lemma {:induction false} IdCountZero(table: seq<PackageRow>, id: string)
    requires forall j :: 0 <= j < |table| ==> table[j].id != id
    ensures OccurrencesOfId(table, id) == 0
  {
    if table != [] {
      IdCountZero(table[1..], id);
    }
  }

  datatype DeleteOutcome = Deleted | DeleteFailed(message: string)

  class MyPackagesSection {
    var packages: seq<PackageRow>
    var dailyYields: map<string, seq<DailyYield>>
    var loading: bool
    var deletingPackage: Option<string>

    constructor ()
      ensures packages == [] && dailyYields == map[] && loading && deletingPackage == None
    {
      packages := [];
      dailyYields := map[];
      loading := true;
      deletingPackage := None;
    }

    /** `fetchPackages`: replaces the list on success, keeps it on error or
        without a user, and always ends the loading state. */
    method FetchPackages(hasUser: bool, result: Fetch<seq<PackageRow>>)
      modifies this
      ensures !loading
      ensures packages == if hasUser && result.Fetched? then result.rows else old(packages)
      ensures dailyYields == old(dailyYields) && deletingPackage == old(deletingPackage)
    {
      if !hasUser {
        loading := false;
        return;
      }
      if result.FetchError? {
        loading := false;
        return;
      }
      packages := result.rows;
      loading := false;
    }

    /** `fetchDailyYields`: on success the groups become exactly the fetched
        rows grouped per package; otherwise they are kept. */
    method FetchDailyYields(hasUser: bool, result: Fetch<seq<YieldRow>>)
      modifies this
      ensures hasUser && result.Fetched? ==>
        && dailyYields.Keys == PackageIds(result.rows)
        && forall id :: id in dailyYields ==> dailyYields[id] == RowsOf(result.rows, id)
      ensures !(hasUser && result.Fetched?) ==> dailyYields == old(dailyYields)
      ensures packages == old(packages) && loading == old(loading) && deletingPackage == old(deletingPackage)
    {
      if !hasUser || result.FetchError? {
        return;
      }
      var groups := GroupYields(result.rows);
      dailyYields := groups;
    }

    /** `handleDeletePackage`: the package id is marked while the request
        runs and the mark is cleared on every outcome. The source then
        refetches the list, which `FetchPackages` models. */
    method HandleDeletePackage(packageId: string, result: WriteResult) returns (outcome: DeleteOutcome)
      modifies this
      ensures outcome == if result.WriteOk? then Deleted else DeleteFailed(result.message)
      ensures deletingPackage == None
      ensures packages == old(packages) && dailyYields == old(dailyYields) && loading == old(loading)
    {
      deletingPackage := Some(packageId);
      if result.WriteError? {
        outcome := DeleteFailed(result.message);
      } else {
        outcome := Deleted;
      }
      deletingPackage := None;
    }
  }
}

=== FILE: package_purchase.dfy ===
/** The free-amount purchase form (src/components/PackagePurchase.tsx): the
    [50, 1000] range check, the package record handed to the page, and the
    estimated return shown under the field. */
module PackagePurchase {
  import opened Common

  const MinAmount: real := 50.0
  const MaxAmount: real := 1000.0
  const RangeMessage: string := "O valor deve estar entre 50 e 1000 USDT."
  /** The deposit address printed on the form. */
  const DepositAddress: string := "0xSuaHashExemploAqui123456789"

  /** `handlePurchase`'s one check: `amountText` is the field, `amount` its
      `parseFloat`. */
  function PurchaseError(amountText: string, amount: Number): (err: Option<string>)
    ensures err.Some? ==> err.value == RangeMessage
    ensures amount.Num? ==> (err.None? <==> amountText != "" && 50.0 <= amount.value <= 1000.0)
    // text that is not a number fails neither bound
    ensures amount.NaN? ==> (err.None? <==> amountText != "")
  {
    if amountText == "" || amount.Below(MinAmount) || amount.Above(MaxAmount) then Some(RangeMessage)
    else None
  }

  /** The figure under the field before `toFixed(2)`: nothing for an empty
      field (shown as '0'), else twice the parsed amount. */
  function EstimatedReturn(amountText: string, amount: Number): (estimate: Option<Number>)
    ensures estimate.None? <==> amountText == ""
    ensures estimate.Some? && amount.Num? ==> estimate.value.Num? && estimate.value.value / 2.0 == amount.value
    ensures estimate.Some? && amount.NaN? ==> estimate.value.NaN?
  {
    if amountText == "" then None
    else match amount
      case Num(x) => Some(Num(x * 2.0))
      case NaN => Some(NaN)
  }

  class PurchaseForm {
    var amount: string
    var isLoading: bool

    constructor ()
      ensures amount == "" && !isLoading
    {
      amount := "";
      isLoading := false;
    }

    /** `handlePurchase` with `parsed` = `parseFloat(amount)`, `now` the
        purchase instant and `hashSuffix` the random text. The result is the
        record passed to `onPurchase`: one on acceptance, none on rejection. */
    method HandlePurchase(parsed: Number, now: int, hashSuffix: string)
      returns (purchased: Option<PackageData>, toast: Toast)
      modifies this
      ensures var err := PurchaseError(old(amount), parsed);
        if err.Some?
        then purchased.None? && toast == ErrorToast(RangeMessage)
             && amount == old(amount) && isLoading == old(isLoading)
        else purchased == Some(PackageData(parsed, now, PaymentHash(hashSuffix)))
             && toast == SuccessToast("Pacote Adquirido!", "")
             && amount == "" && !isLoading
    {
      var err := PurchaseError(amount, parsed);
      if err.Some? {
        return None, ErrorToast(err.value);
      }
      isLoading := true;
      purchased := Some(PackageData(parsed, now, PaymentHash(hashSuffix)));
      toast := SuccessToast("Pacote Adquirido!", "");
      isLoading := false;
      amount := "";
    }

    /** `copyHash`: `copied` is the text written to the clipboard, always
        the printed deposit address; the form itself is left alone. */
    method CopyHash() returns (copied: string, toast: Toast)
      ensures StartsWith(copied, "0x") && copied == DepositAddress
      ensures toast.SuccessToast? && toast.title == "Hash Copiada!"
    {
      copied := DepositAddress;
      toast := SuccessToast("Hash Copiada!", "Hash da carteira copiada para a área de transferência.");
    }
  }
}

=== FILE: package_section.dfy ===
/** The package catalogue page (src/components/PackageSection.tsx): five
    fixed packages, the figures shown on each card, and the purchase that
    inserts a pending package for the signed-in user. */
module PackageSection {
  import opened Common
  import PackagePurchase

  datatype CatalogueEntry = CatalogueEntry(amount: nat, title: string, description: string)

  /** `AVAILABLE_PACKAGES`. */
  const AvailablePackages: seq<CatalogueEntry> := [
    CatalogueEntry(50, "Pacote Starter", "Ideal para iniciantes"),
    CatalogueEntry(100, "Pacote Basic", "Melhor custo benefício"),
    CatalogueEntry(250, "Pacote Silver", "Para investidores sérios"),
    CatalogueEntry(500, "Pacote Gold", "Alto rendimento"),
    CatalogueEntry(1000, "Pacote Diamond", "Máximo rendimento")
  ]

  /** The catalogue is ordered by strictly increasing amount (so the amounts,
      which also key the cards, are distinct), and every amount is one the
      free-amount form accepts, typed as its decimal text. */
  lemma CatalogueConsistent()
    ensures forall i, j :: 0 <= i < j < |AvailablePackages| ==>
      AvailablePackages[i].amount < AvailablePackages[j].amount
    ensures forall i :: 0 <= i < |AvailablePackages| ==>
      var a := AvailablePackages[i].amount;
      && 50 <= a <= 1000
      && PackagePurchase.PurchaseError(Decimal(a), Num(a as real)).None?
  {
  }

  /** The figures on a card, before `toFixed(2)`. */
  datatype Figures = Figures(totalReturn: real, profit: real, daily: real)

  function CardFigures(amount: nat): (f: Figures)
    ensures f.totalReturn == f.profit + amount as real
    ensures 20.0 * f.daily == f.totalReturn
  {
    Figures(amount as real * 2.0, amount as real, amount as real * 0.1)
  }

  /** A card's return is the estimate the free-amount form shows for the
      same amount. */
  lemma CardReturnMatchesEstimate(amount: nat)
    ensures PackagePurchase.EstimatedReturn(Decimal(amount), Num(amount as real))
         == Some(Num(CardFigures(amount).totalReturn))
  {
  }

  /** A row of `packages` as this page inserts it. */
  datatype PackageInsert = PackageInsert(userId: string, amount: nat, status: string)

  /** `PAYMENT_HASH`, the address payments go to. */
  const PaymentAddress: string := "0x950eca39A0B6FFCF8E5c1ae9E7116254408d0fA7"

  const NoUserMessage: string := "Usuário não encontrado."
  const CreateErrorPrefix: string := "Erro ao criar pacote: "

  class PackageSectionPage {
    var loadingPackage: Option<nat>

    constructor ()
      ensures loadingPackage == None
    {
      loadingPackage := None;
    }

    /** A card's button is disabled while its own amount is loading. */
    predicate ButtonDisabled(amount: nat)
      reads this
    {
      loadingPackage == Some(amount)
    }

    /** `handlePurchase(packageAmount)`: one pending package for the
        signed-in user, none without one. The card's amount is loading while
        the request is out and cleared on every outcome, so every card's
        button is enabled again afterwards. */
    method HandlePurchase(packageAmount: nat, user: Option<string>, insert: WriteResult)
      returns (written: Option<PackageInsert>, toast: Toast)
      modifies this
      ensures loadingPackage == None
      ensures forall amount :: !ButtonDisabled(amount)
      ensures user.None? ==> written.None? && toast == ErrorToast(NoUserMessage)
      ensures user.Some? ==> written == Some(PackageInsert(user.value, packageAmount, "pending"))
      ensures user.Some? && insert.WriteError? ==> toast == ErrorToast(CreateErrorPrefix + insert.message)
      ensures user.Some? && insert.WriteOk? ==> toast == SuccessToast("Pacote Criado!", "")
    {
      loadingPackage := Some(packageAmount);
      if user.None? {
        toast := ErrorToast(NoUserMessage);
        written := None;
      } else {
        written := Some(PackageInsert(user.value, packageAmount, "pending"));
        if insert.WriteError? {
          toast := ErrorToast(CreateErrorPrefix + insert.message);
        } else {
          toast := SuccessToast("Pacote Criado!", "");
        }
      }
      loadingPackage := None;
    }

    /** `copyToClipboard(text)`: `clipboardWorks` says whether the browser
        accepts the write; `copied` is what reaches the clipboard. */
    method CopyToClipboard(text: string, clipboardWorks: bool) returns (copied: Option<string>, toast: Toast)
      ensures copied.Some? <==> clipboardWorks
      ensures copied.Some? ==> copied.value == text && toast == SuccessToast("Copiado!", "Hash copiada para a área de transferência.")
      ensures copied.None? ==> toast == ErrorToast("Não foi possível copiar a hash.")
    {
      if clipboardWorks {
        copied := Some(text);
        toast := SuccessToast("Copiado!", "Hash copiada para a área de transferência.");
      } else {
        copied := None;
        toast := ErrorToast("Não foi possível copiar a hash.");
      }
    }
  }
}

=== FILE: profile.dfy ===
/** The profile page (src/components/ProfileSection.tsx): the form filled
    from the stored profile, the avatar upload checks and object name, and
    the save with its username check and error messages. */
module Profile {
  import opened Common

  const UsernameRequiredMessage: string := "Nome de usuário é obrigatório."
  const UniqueViolationCode: string := "23505"
  const UsernameTakenMessage: string := "Este nome de usuário já está em uso."
  const SaveErrorPrefix: string := "Erro ao salvar perfil: "
  const NoFileMessage: string := "Selecione uma imagem para upload."
  const NotImageMessage: string := "Por favor, selecione apenas arquivos de imagem."
  const TooLargeMessage: string := "A imagem deve ter no máximo 5MB."
  const NotSignedInMessage: string := "Usuário não autenticado."
  const StorageMessage: string := "Erro ao preparar o storage para upload."
  const UploadErrorPrefix: string := "Erro ao fazer upload da imagem: "
  const AvatarsBucket: string := "avatars"
  const MaxAvatarBytes: nat := 5 * 1024 * 1024

  // ---------------------------------------------------------------------
  // The form

  datatype FormData = FormData(name: string, email: string, phone: string, username: string, avatarUrl: string)

  /** A stored profile row; every field may be null. */
  datatype ProfileRecord = ProfileRecord(
    id: string, name: Option<string>, email: Option<string>, phone: Option<string>,
    username: Option<string>, avatarUrl: Option<string>)

  /** `a || b` on a nullable text: `a` unless it is null or empty. */
  function OrElse(a: Option<string>, b: string): (r: string)
    ensures a.Some? && a.value != "" ==> r == a.value
    ensures a.None? || a.value == "" ==> r == b
  {
    if a.Some? && a.value != "" then a.value else b
  }

  /** The form `fetchProfile` sets from the row it read, if any, and the
      signed-in user's email. */
  function FormFrom(record: Option<ProfileRecord>, authEmail: Option<string>): (form: FormData)
    // the email comes from the profile, else from the account, else is empty
    ensures record.Some? && record.value.email.Some? && record.value.email.value != "" ==>
      form.email == record.value.email.value
    ensures (record.None? || OrElse(record.value.email, "") == "") ==> form.email == OrElse(authEmail, "")
    // without a row every other field is empty
    ensures record.None? ==> form.name == "" && form.phone == "" && form.username == "" && form.avatarUrl == ""
    ensures record.Some? ==> form.username == OrElse(record.value.username, "")
    // with a row, its name, phone and avatar fill the form, null or empty giving ""
    ensures record.Some? ==> form.name == OrElse(record.value.name, "")
    ensures record.Some? ==> form.phone == OrElse(record.value.phone, "")
    ensures record.Some? ==> form.avatarUrl == OrElse(record.value.avatarUrl, "")
  {
    match record
    case None => FormData("", OrElse(authEmail, ""), "", "", "")
    case Some(p) =>
      FormData(OrElse(p.name, ""), OrElse(p.email, OrElse(authEmail, "")), OrElse(p.phone, ""),
               OrElse(p.username, ""), OrElse(p.avatarUrl, ""))
  }

  // ---------------------------------------------------------------------
  // Saving

  /** `handleSave`'s check: the username must not be blank once trimmed. */
  function UsernameError(username: string): (err: Option<string>)
    ensures err.None? <==> exists k :: 0 <= k < |username| && !IsWhitespace(username[k])
    ensures err.Some? ==> err.value == UsernameRequiredMessage
  {
    TrimEmptyIffBlank(username);
    if Trim(username) == "" then Some(UsernameRequiredMessage) else None
  }

  /** The message for a failed upsert. */
  function SaveErrorMessage(code: string, message: string): (text: string)
    ensures code == UniqueViolationCode ==> text == UsernameTakenMessage
    ensures code != UniqueViolationCode ==> text == SaveErrorPrefix + message
  {
    if code == UniqueViolationCode then UsernameTakenMessage else SaveErrorPrefix + message
  }

  /** The upsert `handleSave` sends: the form's fields as they stand, the
      username untrimmed (the `updated_at` stamp is left out). */
  datatype ProfileUpsert = ProfileUpsert(id: string, form: FormData)

  // ---------------------------------------------------------------------
  // The avatar

  /** The first selected file, as the browser describes it. */
  datatype FileInfo = FileInfo(name: string, mimeType: string, size: nat)

  /** `uploadAvatar`'s checks on the file, first failure wins. */
  function AvatarFileError(file: Option<FileInfo>): (err: Option<string>)
    ensures err.None? <==>
      file.Some? && StartsWith(file.value.mimeType, "image/") && file.value.size <= 5_242_880
    ensures file.None? ==> err == Some(NoFileMessage)
    // a large file of the wrong type is reported as the wrong type
    ensures file.Some? && !StartsWith(file.value.mimeType, "image/") ==> err == Some(NotImageMessage)
    ensures err == Some(TooLargeMessage) <==>
      file.Some? && StartsWith(file.value.mimeType, "image/") && file.value.size > 5_242_880
  {
    match file
    case None => Some(NoFileMessage)
    case Some(f) =>
      if !StartsWith(f.mimeType, "image/") then Some(NotImageMessage)
      else if f.size > MaxAvatarBytes then Some(TooLargeMessage)
      else None
  }

  /** `file.name.split('.').pop()`: the text after the last '.', or the
      whole name when it has none. */
  function FileExtension(fileName: string): (ext: string)
    ensures !Contains(ext, '.')
    ensures |ext| <= |fileName| && fileName[|fileName| - |ext|..] == ext
    ensures |ext| < |fileName| ==> fileName[|fileName| - |ext| - 1] == '.'
  {
    AfterLast(fileName, '.')
  }

  /** A name without a '.' is its own extension. */
  lemma ExtensionOfPlainName(fileName: string)
    requires !Contains(fileName, '.')
    ensures FileExtension(fileName) == fileName
  {
  }

  /** Where an avatar goes: the user's folder, the upload instant and the
      name of the file. */
  datatype StoragePath = StoragePath(userId: string, now: nat, fileName: string)

  /** `${user.id}/${Date.now()}.${fileExt}`. */
  function ObjectName(path: StoragePath): string {
    path.userId + "/" + Decimal(path.now) + "." + FileExtension(path.fileName)
  }

  /** Up to the first '/' of the object name is the user's folder, when
      the user id has no '/'. */
  lemma ObjectNameFolder(userId: string, now: nat, fileName: string)
    requires !Contains(userId, '/')
    ensures BeforeFirst(ObjectName(StoragePath(userId, now, fileName)), '/') == userId
  {
    var digits, ext := Decimal(now), FileExtension(fileName);
    var rest := "/" + digits + "." + ext;
    assert ObjectName(StoragePath(userId, now, fileName)) == userId + rest;
    assert rest[0] == '/';
    BeforeFirstOfPrefix(userId, rest, '/');
  }

  /** What follows the last '.' of the object name is the extension of the
      uploaded file. */
  lemma ObjectNameExtension(userId: string, now: nat, fileName: string)
    ensures AfterLast(ObjectName(StoragePath(userId, now, fileName)), '.') == FileExtension(fileName)
  {
    var ext := FileExtension(fileName);
    var head := userId + "/" + Decimal(now) + ".";
    assert ObjectName(StoragePath(userId, now, fileName)) == head + ext;
    AfterLastOfSuffix(head, ext, '.');
  }

  lemma {:induction false} AfterLastOfSuffix(a: string, b: string, c: char)
    requires !Contains(b, c) && a != [] && a[|a| - 1] == c
    ensures AfterLast(a + b, c) == b
  {
    if b == [] {
      assert a + b == a;
    } else {
      var s := a + b;
      assert s[|s| - 1] == b[|b| - 1];
      assert s[..|s| - 1] == a + b[..|b| - 1];
      var init := b[..|b| - 1];
      assert !Contains(init, c) by {
        forall k | 0 <= k < |init| ensures init[k] != c {
          assert init[k] == b[k];
        }
      }
      AfterLastOfSuffix(a, b[..|b| - 1], c);
    }
  }

  /** `ensureAvatarsBucket`: `listed` is the bucket listing, `create` the
      answer creating the bucket would get. */
  function BucketReady(listed: Fetch<seq<string>>, create: WriteResult): (ready: bool)
    ensures listed.FetchError? ==> !ready
    ensures listed.Fetched? && AvatarsBucket in listed.rows ==> ready
    ensures listed.Fetched? && AvatarsBucket !in listed.rows ==> (ready <==> create.WriteOk?)
  {
    match listed
    case FetchError(_, _) => false
    case Fetched(names) => AvatarsBucket in names || create.WriteOk?
  }

  /** What the storage client returns for one upload. */
  datatype UploadResult = Uploaded(publicUrl: string) | UploadError(message: string)

  /** The avatar image: the form's URL, else the stored one, else none. */
  function AvatarSource(form: FormData, profile: Option<ProfileRecord>): (src: string)
    ensures form.avatarUrl != "" ==> src == form.avatarUrl
    ensures form.avatarUrl == "" && profile.Some? ==> src == OrElse(profile.value.avatarUrl, "")
    ensures form.avatarUrl == "" && profile.None? ==> src == ""
  {
    if form.avatarUrl != "" then form.avatarUrl
    else if profile.Some? then OrElse(profile.value.avatarUrl, "")
    else ""
  }

  /** The letter shown without an image: the first character of the form's
      name, else of the stored name, else of the form's username, else 'U'. */
  function AvatarFallback(form: FormData, profile: Option<ProfileRecord>): (initial: string)
    ensures |initial| == 1
    ensures form.name != "" ==> initial == [form.name[0]]
    ensures form.name == "" && profile.Some? && OrElse(profile.value.name, "") != "" ==>
      initial == [profile.value.name.value[0]]
    ensures form.name == "" && (profile.None? || OrElse(profile.value.name, "") == "") && form.username != "" ==>
      initial == [form.username[0]]
    ensures initial == "U" <==>
      (form.name == "" || form.name[0] == 'U')
      && (form.name != "" || profile.None? || OrElse(profile.value.name, "") == "" || profile.value.name.value[0] == 'U')
      && (form.name != "" || (profile.Some? && OrElse(profile.value.name, "") != "") || form.username == "" || form.username[0] == 'U')
  {
    var stored := if profile.Some? then OrElse(profile.value.name, "") else "";
    if form.name != "" then [form.name[0]]
    else if stored != "" then [stored[0]]
    else if form.username != "" then [form.username[0]]
    else "U"
  }

  /** The four editable fields of the form. */
  datatype Field = NameField | UsernameField | EmailField | PhoneField

  class ProfilePage {
    var profile: Option<ProfileRecord>
    var isEditing: bool
    var loading: bool
    var uploading: bool
    var formData: FormData

    constructor ()
      ensures profile.None? && !isEditing && !loading && !uploading
      ensures formData == FormData("", "", "", "", "")
    {
      profile := None;
      isEditing, loading, uploading := false, false, false;
      formData := FormData("", "", "", "", "");
    }

    /** `fetchProfile`: `read` is the `.single()` read of the user's row.
        A row fills the form; a missing row or a failed read leaves a form
        holding only the account's email. */
    method FetchProfile(user: Option<AuthUser>, read: Fetch<ProfileRecord>)
      modifies this
      ensures user.None? ==> formData == old(formData) && profile == old(profile)
      ensures user.Some? && read.Fetched? ==>
        profile == Some(read.rows) && formData == FormFrom(Some(read.rows), user.value.email)
      ensures user.Some? && read.FetchError? ==>
        profile == old(profile) && formData == FormFrom(None, user.value.email)
      ensures isEditing == old(isEditing) && loading == old(loading) && uploading == old(uploading)
    {
      if user.None? {
        return;
      }
      match read {
        case Fetched(row) =>
          profile := Some(row);
          formData := FormFrom(Some(row), user.value.email);
        case FetchError(_, _) =>
          formData := FormFrom(None, user.value.email);
      }
    }

    /** `handleSave`. `saved` tells whether the page went on to refetch the
        profile and call `onProfileUpdate`. Edit mode is left only on a
        successful save. */
    method HandleSave(user: Option<AuthUser>, result: WriteResult)
      returns (written: Option<ProfileUpsert>, toast: Toast, saved: bool)
      modifies this
      ensures formData == old(formData) && profile == old(profile) && uploading == old(uploading)
      ensures var err := UsernameError(formData.username);
        && (err.Some? ==> written.None? && toast == ErrorToast(err.value) && loading == old(loading))
        && (err.None? ==> !loading)
        && (err.None? && user.None? ==> written.None? && toast == NoToast)
        && (err.None? && user.Some? ==> written == Some(ProfileUpsert(user.value.id, formData)))
        && (err.None? && user.Some? && result.WriteError? ==>
              toast == ErrorToast(SaveErrorMessage(result.code, result.message)))
        && (err.None? && user.Some? && result.WriteOk? ==>
              toast == SuccessToast("Sucesso!", "Perfil atualizado com sucesso."))
      ensures saved <==> UsernameError(formData.username).None? && user.Some? && result.WriteOk?
      ensures isEditing == if saved then false else old(isEditing)
    {
      saved := false;
      var err := UsernameError(formData.username);
      if err.Some? {
        return None, ErrorToast(err.value), false;
      }
      loading := true;
      if user.None? {
        loading := false;
        return None, NoToast, false;
      }
      written := Some(ProfileUpsert(user.value.id, formData));
      if result.WriteError? {
        toast := ErrorToast(SaveErrorMessage(result.code, result.message));
      } else {
        toast := SuccessToast("Sucesso!", "Perfil atualizado com sucesso.");
        isEditing := false;
        saved := true;
      }
      loading := false;
    }

    /** The "Editar Perfil" button. */
    method StartEditing()
      modifies this
      ensures isEditing
      ensures profile == old(profile) && formData == old(formData)
      ensures loading == old(loading) && uploading == old(uploading)
    {
      isEditing := true;
    }

    /** The "Cancelar" button: leaves edit mode and reloads the form from
        the stored profile, dropping the edits. */
    method CancelEditing(user: Option<AuthUser>, read: Fetch<ProfileRecord>)
      modifies this
      ensures !isEditing
      ensures user.Some? && read.Fetched? ==> formData == FormFrom(Some(read.rows), user.value.email)
      ensures user.Some? && read.FetchError? ==> formData == FormFrom(None, user.value.email)
      ensures user.None? ==> formData == old(formData)
      ensures user.Some? && read.Fetched? ==> profile == Some(read.rows)
      ensures !(user.Some? && read.Fetched?) ==> profile == old(profile)
      ensures loading == old(loading) && uploading == old(uploading)
    {
      isEditing := false;
      FetchProfile(user, read);
    }

    /** An input's `onChange`: while editing, one field takes the typed
        value and the others keep theirs; outside edit mode the inputs are
        disabled and nothing changes. */
    method EditField(field: Field, value: string)
      modifies this
      ensures !old(isEditing) ==> formData == old(formData)
      ensures old(isEditing) ==> formData == (match field
        case NameField => old(formData).(name := value)
        case UsernameField => old(formData).(username := value)
        case EmailField => old(formData).(email := value)
        case PhoneField => old(formData).(phone := value))
      ensures formData.avatarUrl == old(formData.avatarUrl)
      ensures profile == old(profile) && isEditing == old(isEditing)
      ensures loading == old(loading) && uploading == old(uploading)
    {
      if !isEditing {
        return;
      }
      match field {
        case NameField => formData := formData.(name := value);
        case UsernameField => formData := formData.(username := value);
        case EmailField => formData := formData.(email := value);
        case PhoneField => formData := formData.(phone := value);
      }
    }

    /** `uploadAvatar`: `uploadedAs` is where the file is stored (under
        `ObjectName(uploadedAs)`), when the upload is attempted. A successful upload with a
        public URL changes only the avatar of the form; uploading ends false
        on every path. */
    method UploadAvatar(file: Option<FileInfo>, user: Option<AuthUser>, now: nat,
                        listed: Fetch<seq<string>>, create: WriteResult, upload: UploadResult)
      returns (uploadedAs: Option<StoragePath>, toast: Toast)
      modifies this
      ensures !uploading
      ensures profile == old(profile) && isEditing == old(isEditing) && loading == old(loading)
      ensures AvatarFileError(file).Some? ==> uploadedAs.None? && toast == ErrorToast(AvatarFileError(file).value)
      ensures AvatarFileError(file).None? && user.None? ==>
        uploadedAs.None? && toast == ErrorToast(NotSignedInMessage)
      ensures AvatarFileError(file).None? && user.Some? && !BucketReady(listed, create) ==>
        uploadedAs.None? && toast == ErrorToast(StorageMessage)
      ensures uploadedAs.Some? <==> AvatarFileError(file).None? && user.Some? && BucketReady(listed, create)
      ensures uploadedAs.Some? ==> uploadedAs == Some(StoragePath(user.value.id, now, file.value.name))
      ensures uploadedAs.Some? && upload.UploadError? ==> toast == ErrorToast(UploadErrorPrefix + upload.message)
      ensures uploadedAs.Some? && upload.Uploaded? ==>
        toast == (if upload.publicUrl != "" then SuccessToast("Sucesso!", "Foto enviada com sucesso.") else NoToast)
      ensures formData ==
        if uploadedAs.Some? && upload.Uploaded? && upload.publicUrl != ""
        then old(formData).(avatarUrl := upload.publicUrl)
        else old(formData)
    {
      uploading := true;
      uploadedAs, toast := None, NoToast;
      var err := AvatarFileError(file);
      if err.Some? {
        toast := ErrorToast(err.value);
        uploading := false;
        return;
      }
      if user.None? {
        toast := ErrorToast(NotSignedInMessage);
        uploading := false;
        return;
      }
      if !BucketReady(listed, create) {
        toast := ErrorToast(StorageMessage);
        uploading := false;
        return;
      }
      uploadedAs := Some(StoragePath(user.value.id, now, file.value.name));
      match upload {
        case UploadError(message) =>
          toast := ErrorToast(UploadErrorPrefix + message);
        case Uploaded(url) =>
          if url != "" {
            formData := formData.(avatarUrl := url);
            toast := SuccessToast("Sucesso!", "Foto enviada com sucesso.");
          }
      }
      uploading := false;
    }
  }
}

=== FILE: referrals.dfy ===
/** The referrals page (src/components/ReferralsSection.tsx): the
    invitation link, with a generated `user_xxxxxxxx` username when the
    profile has none, and the list of referred users joined with their
    profiles and the bonus total. */
module Referrals {
  import opened Common

  const TempPrefix: string := "user_"
  const LoadErrorPrefix: string := "Erro ao carregar indicações: "

  /** `user_${user.id.slice(0, 8)}`. */
  function TempUsername(userId: string): (name: string)
    ensures StartsWith(name, TempPrefix) && |name| <= 13
    ensures StartsWith(userId, name[|TempPrefix|..])
    ensures |name| == |TempPrefix| + (if |userId| < 8 then |userId| else 8)
  {
    var name := TempPrefix + Prefix(userId, 8);
    assert name[|TempPrefix|..] == Prefix(userId, 8);
    name
  }

  /** The upsert `generateReferralLink` sends (the `updated_at` stamp is left out). */
  datatype ProfileUpsert = ProfileUpsert(id: string, username: string, email: Option<string>)

  /** What `generateReferralLink` does after the profile read: the upsert it
      sends, if any, and the username the link is built from, if any. */
  datatype LinkPlan = LinkPlan(upsert: Option<ProfileUpsert>, username: Option<string>)

  /** The read of the profile's username failed with something other than
      "no row": the handler gives up. */
  predicate ReadFailed(read: Fetch<Option<string>>) {
    read.FetchError? && read.code != NoRowsCode
  }

  /** The username the read found, when it is non-empty. */
  function ExistingUsername(read: Fetch<Option<string>>): Option<string> {
    if read.Fetched? && read.rows.Some? && read.rows.value != "" then read.rows else None
  }

  /** `generateReferralLink` after `getUser`: `read` is the profile read
      (`None` for a null username), `upsertResult` the answer the upsert
      would get. */
  function PlanLink(user: AuthUser, read: Fetch<Option<string>>, upsertResult: WriteResult): (plan: LinkPlan)
    // an existing username is used as it is and never replaced
    ensures ExistingUsername(read).Some? ==> plan == LinkPlan(None, ExistingUsername(read))
    // a temporary username is written only when the read found none
    ensures plan.upsert.Some? <==> !ReadFailed(read) && ExistingUsername(read).None?
    ensures plan.upsert.Some? ==> plan.upsert.value == ProfileUpsert(user.id, TempUsername(user.id), user.email)
    // no link after a failed read, or when the temporary username could not be written
    ensures plan.username.None? <==>
      ReadFailed(read) || (ExistingUsername(read).None? && upsertResult.WriteError?)
    ensures plan.username.Some? ==> plan.username.value != ""
    // after a successful write the link uses the temporary username just written
    ensures !ReadFailed(read) && ExistingUsername(read).None? && upsertResult.WriteOk? ==>
      plan.username == Some(TempUsername(user.id))
  {
    if ReadFailed(read) then LinkPlan(None, None)
    else match ExistingUsername(read)
      case Some(name) => LinkPlan(None, Some(name))
      case None =>
        var temp := TempUsername(user.id);
        var upsert := Some(ProfileUpsert(user.id, temp, user.email));
        if upsertResult.WriteOk? then LinkPlan(upsert, Some(temp)) else LinkPlan(upsert, None)
  }

  /** The link for alice on https://example.com. */
  lemma LinkExample()
    ensures ReferralLink("https://example.com", "alice") == "https://example.com/?ref=alice"
  {
  }

  // ---------------------------------------------------------------------
  // The list

  datatype Referral = Referral(id: string, referredId: string, bonusAmount: Option<real>, createdAt: string)

  datatype ProfileRow = ProfileRow(id: string, name: Option<string>, email: Option<string>, username: Option<string>)

  datatype ReferralWithProfile = ReferralWithProfile(referral: Referral, referredProfile: Option<ProfileRow>)

  predicate HasProfile(profiles: seq<ProfileRow>, id: string) {
    exists k :: 0 <= k < |profiles| && profiles[k].id == id
  }

  /** `profilesData.find(p => p.id === id)`: the first profile with that id. */
  function FindProfile(profiles: seq<ProfileRow>, id: string): (found: Option<ProfileRow>)
    ensures found.None? <==> !HasProfile(profiles, id)
    ensures found.Some? ==> found.value.id == id && found.value in profiles
    ensures found.Some? ==> exists k :: 0 <= k < |profiles| && profiles[k] == found.value
                                        && forall j :: 0 <= j < k ==> profiles[j].id != id
  {
    if profiles == [] then None
    else if profiles[0].id == id then
      assert profiles[0] == profiles[0];
      Some(profiles[0])
    else
      var rest := FindProfile(profiles[1..], id);
      assert forall k :: 1 <= k < |profiles| ==> profiles[k] == profiles[1..][k - 1];
      rest
  }

  /** The `map` of `fetchReferrals`: each referral, in order, with the
      profile of the user it brought in, or none. */
  function JoinProfiles(referrals: seq<Referral>, profiles: seq<ProfileRow>): (joined: seq<ReferralWithProfile>)
    ensures |joined| == |referrals|
    ensures forall i :: 0 <= i < |joined| ==>
      && joined[i].referral == referrals[i]
      && (joined[i].referredProfile.None? <==> !HasProfile(profiles, referrals[i].referredId))
      && (joined[i].referredProfile.Some? ==>
            joined[i].referredProfile.value.id == referrals[i].referredId
            && joined[i].referredProfile.value in profiles)
  {
    seq(|referrals|, i requires 0 <= i < |referrals| =>
      ReferralWithProfile(referrals[i], FindProfile(profiles, referrals[i].referredId)))
  }

  function BonusOf(r: Referral): real {
    match r.bonusAmount
    case Some(b) => b
    case None => 0.0
  }

  /** The `reduce` of `fetchReferrals`: the bonuses added from the left, a
      missing bonus counting as 0. */
  function TotalBonus(referrals: seq<Referral>): real {
    if referrals == [] then 0.0
    else TotalBonus(referrals[..|referrals| - 1]) + BonusOf(referrals[|referrals| - 1])
  }

  /** The total of two lists put together is the sum of their totals. */
  lemma {:induction false} TotalBonusAppend(a: seq<Referral>, b: seq<Referral>)
    ensures TotalBonus(a + b) == TotalBonus(a) + TotalBonus(b)
  {
    if b == [] {
      assert a + b == a;
    } else {
      var init := b[..|b| - 1];
      assert (a + b)[..|a + b| - 1] == a + init;
      TotalBonusAppend(a, init);
    }
  }

  /** Non-negative bonuses give a total no smaller than any one bonus. */
  lemma {:induction false} TotalBonusBounds(referrals: seq<Referral>, k: nat)
    requires k < |referrals|
    requires forall i :: 0 <= i < |referrals| ==> BonusOf(referrals[i]) >= 0.0
    ensures TotalBonus(referrals) >= BonusOf(referrals[k])
  {
    var n := |referrals|;
    TotalBonusNonNegative(referrals[..n - 1]);
    if k < n - 1 {
      TotalBonusBounds(referrals[..n - 1], k);
    }
  }

  lemma {:induction false} TotalBonusNonNegative(referrals: seq<Referral>)
    requires forall i :: 0 <= i < |referrals| ==> BonusOf(referrals[i]) >= 0.0
    ensures TotalBonus(referrals) >= 0.0
  {
    if referrals != [] {
      TotalBonusNonNegative(referrals[..|referrals| - 1]);
    }
  }

  class ReferralsPage {
    var referrals: seq<ReferralWithProfile>
    var referralLink: string
    var totalBonus: real
    var loading: bool
    var refreshing: bool

    constructor ()
      ensures referrals == [] && referralLink == "" && totalBonus == 0.0 && loading && !refreshing
    {
      referrals, referralLink, totalBonus := [], "", 0.0;
      loading, refreshing := true, false;
    }

    /** `generateReferralLink`: returns the upsert sent, if any; the link
        changes only when a username is available. */
    method GenerateReferralLink(origin: string, user: Option<AuthUser>, read: Fetch<Option<string>>, upsertResult: WriteResult)
      returns (upserted: Option<ProfileUpsert>)
      modifies this
      ensures user.None? ==> upserted.None? && referralLink == old(referralLink)
      ensures user.Some? ==>
        var plan := PlanLink(user.value, read, upsertResult);
        && upserted == plan.upsert
        && referralLink == (if plan.username.Some? then ReferralLink(origin, plan.username.value) else old(referralLink))
      ensures referrals == old(referrals) && totalBonus == old(totalBonus)
      ensures loading == old(loading) && refreshing == old(refreshing)
    {
      if user.None? {
        return None;
      }
      var plan := PlanLink(user.value, read, upsertResult);
      upserted := plan.upsert;
      if plan.username.Some? {
        referralLink := ReferralLink(origin, plan.username.value);
      }
    }

    /** `fetchReferrals`: `found` is the referrals read, `profiles` the read
        of the referred users' profiles (a failed read joins no profile). */
    method FetchReferrals(hasUser: bool, found: Fetch<seq<Referral>>, profiles: Fetch<seq<ProfileRow>>)
      returns (toast: Toast)
      modifies this
      ensures !loading && !refreshing && referralLink == old(referralLink)
      ensures !hasUser ==> toast == NoToast && referrals == old(referrals) && totalBonus == old(totalBonus)
      // a failed read keeps the list and the total
      ensures hasUser && found.FetchError? ==>
        toast == ErrorToast(LoadErrorPrefix + found.message)
        && referrals == old(referrals) && totalBonus == old(totalBonus)
      ensures hasUser && found.Fetched? ==>
        var known := if profiles.Fetched? then profiles.rows else [];
        && referrals == JoinProfiles(found.rows, known)
        && totalBonus == TotalBonus(found.rows)
        && toast == (if found.rows == [] then NoToast else SuccessToast("Dados atualizados", ""))
    {
      refreshing := true;
      if !hasUser {
        toast := NoToast;
      } else if found.FetchError? {
        toast := ErrorToast(LoadErrorPrefix + found.message);
      } else if found.rows == [] {
        referrals := [];
        totalBonus := 0.0;
        toast := NoToast;
      } else {
        var known := if profiles.Fetched? then profiles.rows else [];
        referrals := JoinProfiles(found.rows, known);
        totalBonus := TotalBonus(found.rows);
        toast := SuccessToast("Dados atualizados", "");
      }
      loading := false;
      refreshing := false;
    }

    /** `copyReferralLink`: `clipboardWorks` says whether the browser accepts
        the write; the current link, even an empty one, is what is copied. */
    method CopyReferralLink(clipboardWorks: bool) returns (copied: Option<string>, toast: Toast)
      ensures copied.Some? <==> clipboardWorks
      ensures copied.Some? ==> copied.value == referralLink
      ensures copied.Some? ==> toast == SuccessToast("Copiado!", "Link de indicação copiado para a área de transferência.")
      ensures copied.None? ==> toast == ErrorToast("Não foi possível copiar o link.")
    {
      if clipboardWorks {
        copied := Some(referralLink);
        toast := SuccessToast("Copiado!", "Link de indicação copiado para a área de transferência.");
      } else {
        copied := None;
        toast := ErrorToast("Não foi possível copiar o link.");
      }
    }
  }
}

=== FILE: user_dashboard.dfy ===
/** The dashboard's own withdrawal forms and referral link
    (src/components/UserDashboard.tsx). Its bonus form is a second copy of
    the statement page's bonus form with other messages; its yield form also
    demands a package and writes nothing. */
module UserDashboard {
  import opened Common
  import FinancialSections

  const BonusMinMessage: string := "Valor mínimo para saque de bônus é 10 USDT."
  const BonusMaxMessage: string := "Valor máximo para saque de bônus é 500 USDT."
  const WalletMessage: string := "Por favor, insira o hash da carteira."
  const YieldAmountMessage: string := "Insira um valor válido para saque."
  const PackageMessage: string := "Você precisa ter um pacote ativo para sacar rendimentos."
  const ProcessErrorMessage: string := "Erro ao processar saque."
  const CopiedTitle: string := "Link Copiado!"
  const CopiedMessage: string := "Link de indicação copiado para a área de transferência."
  const NoLinkMessage: string := "Complete seu perfil com um nome de usuário para gerar o link."

  /** `handleBonusWithdraw`'s checks (first failure wins; `None` accepts). */
  function BonusWithdrawError(amountText: string, amount: Number, wallet: string): (err: Option<string>)
    ensures amount.Num? ==>
      (err.None? <==> amountText != "" && 10.0 <= amount.value <= 500.0 && wallet != "")
    ensures amount.NaN? ==> (err.None? <==> amountText != "" && wallet != "")
    ensures amountText == "" || amount.Below(10.0) ==> err == Some(BonusMinMessage)
    ensures err == Some(WalletMessage) <==>
      amountText != "" && !amount.Below(10.0) && !amount.Above(500.0) && wallet == ""
  {
    if amountText == "" || amount.Below(10.0) then Some(BonusMinMessage)
    else if amount.Above(500.0) then Some(BonusMaxMessage)
    else if wallet == "" then Some(WalletMessage)
    else None
  }

  /** The two bonus forms accept the same requests and reject each request
      at the same check, only worded differently. */
  lemma BonusFormsAgree(amountText: string, amount: Number, wallet: string)
    ensures var mine := BonusWithdrawError(amountText, amount, wallet);
            var theirs := FinancialSections.BonusWithdrawalError(amountText, amount, wallet);
            && (mine.None? <==> theirs.None?)
            && (mine == Some(BonusMinMessage) <==> theirs == Some(FinancialSections.BonusMinMessage))
            && (mine == Some(BonusMaxMessage) <==> theirs == Some(FinancialSections.BonusMaxMessage))
            && (mine == Some(WalletMessage) <==> theirs == Some(FinancialSections.WalletMessage))
  {
  }

  /** `handleYieldWithdraw`'s checks: a positive amount, then a wallet, then
      a package. */
  function YieldWithdrawError(amountText: string, amount: Number, wallet: string, hasPackage: bool): (err: Option<string>)
    ensures amount.Num? ==>
      (err.None? <==> amountText != "" && amount.value > 0.0 && wallet != "" && hasPackage)
    ensures err == Some(PackageMessage) <==>
      amountText != "" && !amount.AtMost(0.0) && wallet != "" && !hasPackage
    // the amount is checked before the wallet, the wallet before the package
    ensures amountText == "" || amount.AtMost(0.0) ==> err == Some(YieldAmountMessage)
    ensures err == Some(WalletMessage) <==> amountText != "" && !amount.AtMost(0.0) && wallet == ""
  {
    if amountText == "" || amount.AtMost(0.0) then Some(YieldAmountMessage)
    else if wallet == "" then Some(WalletMessage)
    else if !hasPackage then Some(PackageMessage)
    else None
  }

  /** The dashboard accepts a yield request exactly when the statement
      page's form would and the user has a package. */
  lemma YieldFormsAgree(amountText: string, amount: Number, wallet: string, hasPackage: bool)
    ensures YieldWithdrawError(amountText, amount, wallet, hasPackage).None? <==>
            FinancialSections.YieldWithdrawalError(amountText, amount, wallet).None? && hasPackage
  {
  }

  /** The link `generateReferralLink` sets, if any: only a profile with a
      non-empty username yields one; there is no fallback name. */
  function DashboardReferralLink(origin: string, username: Option<string>): (link: Option<string>)
    ensures link.Some? <==> username.Some? && username.value != ""
    ensures link.Some? ==> ReferralUsername(origin, link.value) == Some(username.value)
  {
    if username.Some? && username.value != "" then Some(ReferralLink(origin, username.value)) else None
  }

  /** Who a dashboard link points at: the text after the origin and "/?ref=". */
  function ReferralUsername(origin: string, link: string): Option<string> {
    var head := origin + "/?ref=";
    if StartsWith(link, head) then Some(link[|head|..]) else None
  }

  class Dashboard {
    var bonusAmount: string
    var bonusWallet: string
    var yieldAmount: string
    var yieldWallet: string
    var referralLink: string

    constructor ()
      ensures bonusAmount == "" && bonusWallet == "" && yieldAmount == "" && yieldWallet == ""
      ensures referralLink == ""
    {
      bonusAmount, bonusWallet, yieldAmount, yieldWallet := "", "", "", "";
      referralLink := "";
    }

    /** `generateReferralLink`: `username` is the profile's username as read
        (None when there is no user, no profile row or the read failed). */
    method GenerateReferralLink(origin: string, username: Option<string>)
      modifies this
      ensures referralLink == match DashboardReferralLink(origin, username)
                              case Some(link) => link
                              case None => old(referralLink)
      ensures bonusAmount == old(bonusAmount) && bonusWallet == old(bonusWallet)
      ensures yieldAmount == old(yieldAmount) && yieldWallet == old(yieldWallet)
    {
      var link := DashboardReferralLink(origin, username);
      if link.Some? {
        referralLink := link.value;
      }
    }

    /** `copyReferralLink`: returns what is written to the clipboard. */
    method CopyReferralLink() returns (copied: Option<string>, toast: Toast)
      ensures copied.Some? <==> referralLink != ""
      ensures copied.Some? ==> copied.value == referralLink && toast == SuccessToast(CopiedTitle, CopiedMessage)
      ensures copied.None? ==> toast == ErrorToast(NoLinkMessage)
    {
      if referralLink != "" {
        copied := Some(referralLink);
        toast := SuccessToast(CopiedTitle, CopiedMessage);
      } else {
        copied := None;
        toast := ErrorToast(NoLinkMessage);
      }
    }

    /** `handleBonusWithdraw`: the insert is attempted only after the checks
        pass and with a signed-in user; the fields are cleared only after it
        succeeds, and any insert error gets the one generic message. */
    method HandleBonusWithdraw(amount: Number, user: Option<string>, insert: WriteResult)
      returns (written: Option<FinancialSections.Transaction>, toast: Toast)
      modifies this
      ensures yieldAmount == old(yieldAmount) && yieldWallet == old(yieldWallet)
      ensures referralLink == old(referralLink)
      ensures var err := BonusWithdrawError(old(bonusAmount), amount, old(bonusWallet));
        && (err.Some? ==> written.None? && toast == ErrorToast(err.value))
        && (err.None? && user.None? ==> written.None? && toast == NoToast)
        && (err.None? && user.Some? ==>
              written == Some(FinancialSections.Transaction(user.value, "bonus_withdrawal", amount, old(bonusWallet), "pending")))
        && (err.None? && user.Some? && insert.WriteError? ==> toast == ErrorToast(ProcessErrorMessage))
        && (if err.None? && user.Some? && insert.WriteOk?
            then toast == SuccessToast("Saque Solicitado!", "") && bonusAmount == "" && bonusWallet == ""
            else bonusAmount == old(bonusAmount) && bonusWallet == old(bonusWallet))
    {
      var err := BonusWithdrawError(bonusAmount, amount, bonusWallet);
      if err.Some? {
        return None, ErrorToast(err.value);
      }
      if user.None? {
        return None, NoToast;
      }
      written := Some(FinancialSections.Transaction(user.value, "bonus_withdrawal", amount, bonusWallet, "pending"));
      if insert.WriteError? {
        toast := ErrorToast(ProcessErrorMessage);
        return;
      }
      toast := SuccessToast("Saque Solicitado!", "");
      bonusAmount := "";
      bonusWallet := "";
    }

    /** `handleYieldWithdraw`: nothing is written; an accepted request only
        shows the notice and clears the two fields. */
    method HandleYieldWithdraw(amount: Number, hasPackage: bool) returns (toast: Toast)
      modifies this
      ensures bonusAmount == old(bonusAmount) && bonusWallet == old(bonusWallet)
      ensures referralLink == old(referralLink)
      ensures var err := YieldWithdrawError(old(yieldAmount), amount, old(yieldWallet), hasPackage);
        if err.Some?
        then toast == ErrorToast(err.value) && yieldAmount == old(yieldAmount) && yieldWallet == old(yieldWallet)
        else toast == SuccessToast("Saque Solicitado!", "") && yieldAmount == "" && yieldWallet == ""
    {
      var err := YieldWithdrawError(yieldAmount, amount, yieldWallet, hasPackage);
      if err.Some? {
        return ErrorToast(err.value);
      }
      toast := SuccessToast("Saque Solicitado!", "");
      yieldAmount := "";
      yieldWallet := "";
    }
  }
}

=== FILE: withdrawal_data.dfy ===
/** The payout wallet form (src/components/WithdrawalDataSection.tsx): the
    stored wallet loads into the field, and a save stores the trimmed field
    unless it is blank. */
module WithdrawalData {
  import opened Common

  const BlankMessage: string := "Por favor, informe a hash da carteira."
  const SaveErrorPrefix: string := "Erro ao salvar dados: "
  const SavedMessage: string := "Dados para recebimento salvos com sucesso."

  /** What `handleSave` would store for the field: nothing when the field is
      blank, else the field trimmed. */
  function WalletToStore(walletHash: string): (stored: Option<string>)
    ensures stored.None? <==> forall k :: 0 <= k < |walletHash| ==> IsWhitespace(walletHash[k])
    ensures stored.Some? ==> stored.value != "" && IsTrimmed(stored.value)
    ensures stored.Some? ==> stored.value == Trim(walletHash)
    // a value with nothing to trim is stored exactly as typed
    ensures walletHash != "" && IsTrimmed(walletHash) ==> stored == Some(walletHash)
  {
    TrimEmptyIffBlank(walletHash);
    TrimOfTrimmed(walletHash);
    var t := Trim(walletHash);
    if t == "" then None else Some(t)
  }

  /** Saving what was stored stores it again. */
  lemma StoreIdempotent(walletHash: string)
    requires WalletToStore(walletHash).Some?
    ensures WalletToStore(WalletToStore(walletHash).value) == WalletToStore(walletHash)
  {
  }

  /** The update `handleSave` sends (the `updated_at` stamp is left out). */
  datatype WalletUpdate = WalletUpdate(userId: string, withdrawalWalletHash: string)

  class WalletForm {
    var walletHash: string
    var loading: bool
    var isLoading: bool

    constructor ()
      ensures walletHash == "" && !loading && isLoading
    {
      walletHash := "";
      loading, isLoading := false, true;
    }

    /** `fetchWithdrawalData`: `stored` is the read of the profile's
        `withdrawal_wallet_hash` (`None` for null). The field is set only
        when a non-empty wallet is stored. */
    method FetchWithdrawalData(hasUser: bool, stored: Fetch<Option<string>>)
      modifies this
      ensures !isLoading && loading == old(loading)
      ensures walletHash ==
        if hasUser && stored.Fetched? && stored.rows.Some? && stored.rows.value != ""
        then stored.rows.value else old(walletHash)
    {
      if hasUser && stored.Fetched? && stored.rows.Some? && stored.rows.value != "" {
        walletHash := stored.rows.value;
      }
      isLoading := false;
    }

    /** `handleSave`: a blank field is refused without a write; otherwise
        the trimmed field is sent. The field itself is never changed. */
    method HandleSave(user: Option<string>, update: WriteResult)
      returns (written: Option<WalletUpdate>, toast: Toast)
      modifies this
      ensures walletHash == old(walletHash) && isLoading == old(isLoading)
      ensures var value := WalletToStore(walletHash);
        && (value.None? ==> written.None? && toast == ErrorToast(BlankMessage) && loading == old(loading))
        && (value.Some? ==> !loading)
        && (value.Some? && user.None? ==> written.None? && toast == NoToast)
        && (value.Some? && user.Some? ==> written == Some(WalletUpdate(user.value, value.value)))
        && (value.Some? && user.Some? && update.WriteError? ==> toast == ErrorToast(SaveErrorPrefix + update.message))
        && (value.Some? && user.Some? && update.WriteOk? ==> toast == SuccessToast("Sucesso!", SavedMessage))
    {
      var value := WalletToStore(walletHash);
      if value.None? {
        return None, ErrorToast(BlankMessage);
      }
      loading := true;
      if user.None? {
        loading := false;
        return None, NoToast;
      }
      written := Some(WalletUpdate(user.value, value.value));
      if update.WriteError? {
        toast := ErrorToast(SaveErrorPrefix + update.message);
      } else {
        toast := SuccessToast("Sucesso!", SavedMessage);
      }
      loading := false;
    }
  }
}

=== FILE: withdrawal_pin.dfy ===
/** The withdrawal PIN form (src/components/WithdrawalPinSection.tsx): the
    digit filter on both fields, the three-step check on save, and the state
    after a save. */
module WithdrawalPin {
  import opened Common

  const PinLength: nat := 6

  const FillMessage: string := "Por favor, preencha todos os campos."
  const FormatMessage: string := "O PIN deve conter exatamente 6 dígitos numéricos."
  const MismatchMessage: string := "Os PINs não coincidem."
  const SaveErrorPrefix: string := "Erro ao salvar PIN: "
  const UpdatedMessage: string := "PIN de saque atualizado com sucesso."
  const CreatedMessage: string := "PIN de saque criado com sucesso."

  /** `s.replace(/\D/g, '')`: the ASCII digits of `s`, in order. */
  function DigitsOnly(s: string): (r: string)
    ensures AllDigits(r) && |r| <= |s|
  {
    if s == [] then []
    else if IsDigit(s[0]) then [s[0]] + DigitsOnly(s[1..])
    else DigitsOnly(s[1..])
  }

  /** A string of digits passes the filter unchanged. */
  lemma {:induction false} DigitsOnlyOfDigits(s: string)
    requires AllDigits(s)
    ensures DigitsOnly(s) == s
  {
    if s != [] {
      DigitsOnlyOfDigits(s[1..]);
    }
  }

  /** A string without digits is removed entirely. */
  lemma {:induction false} DigitsOnlyDropsNonDigits(s: string)
    requires forall k :: 0 <= k < |s| ==> !IsDigit(s[k])
    ensures DigitsOnly(s) == []
  {
    if s != [] {
      DigitsOnlyDropsNonDigits(s[1..]);
    }
  }

  /** The filter keeps each digit and drops everything else: the digits in
      `s` and in its filtered form occur in the same order. */
  lemma {:induction false} DigitsOnlySplits(a: string, b: string)
    ensures DigitsOnly(a + b) == DigitsOnly(a) + DigitsOnly(b)
  {
    if a != [] {
      assert (a + b)[1..] == a[1..] + b;
      DigitsOnlySplits(a[1..], b);
    } else {
      assert a + b == b;
    }
  }

  /** The `onChange` of both fields: the digits typed, cut to six. */
  function SanitizePin(raw: string): (pin: string)
    ensures AllDigits(pin) && |pin| <= PinLength
    // the first six digits of the input, in order
    ensures StartsWith(DigitsOnly(raw), pin)
    ensures |pin| == if |DigitsOnly(raw)| < PinLength then |DigitsOnly(raw)| else PinLength
  {
    Prefix(DigitsOnly(raw), PinLength)
  }

  /** Filtering a filtered value changes nothing. */
  lemma SanitizeIdempotent(raw: string)
    ensures SanitizePin(SanitizePin(raw)) == SanitizePin(raw)
  {
    DigitsOnlyOfDigits(SanitizePin(raw));
  }

  /** `handleSave`'s checks, first failure wins; `None` accepts. */
  function PinError(pin: string, confirmPin: string): (err: Option<string>)
    ensures err.None? <==> pin != "" && |pin| == PinLength && AllDigits(pin) && confirmPin == pin
    ensures pin == "" || confirmPin == "" ==> err == Some(FillMessage)
    // a bad format is reported even when the two entries also differ
    ensures pin != "" && confirmPin != "" && !(|pin| == PinLength && AllDigits(pin)) ==> err == Some(FormatMessage)
    ensures err == Some(MismatchMessage) <==>
      confirmPin != "" && |pin| == PinLength && AllDigits(pin) && confirmPin != pin
  {
    if pin == "" || confirmPin == "" then Some(FillMessage)
    else if |pin| != PinLength || !AllDigits(pin) then Some(FormatMessage)
    else if pin != confirmPin then Some(MismatchMessage)
    else None
  }

  /** Through the filtered fields the format check can only fail on length:
      two entries with six digits each that agree are accepted. */
  lemma FilteredEntriesAccepted(rawPin: string, rawConfirm: string)
    requires |DigitsOnly(rawPin)| >= PinLength
    requires SanitizePin(rawConfirm) == SanitizePin(rawPin)
    ensures PinError(SanitizePin(rawPin), SanitizePin(rawConfirm)).None?
  {
  }

  /** The message of a successful save. */
  function SavedMessage(hadPin: bool): (message: string)
    ensures message == UpdatedMessage <==> hadPin
    ensures message == CreatedMessage <==> !hadPin
  {
    if hadPin then UpdatedMessage else CreatedMessage
  }

  /** The update `handleSave` sends (the `updated_at` stamp is left out). */
  datatype PinUpdate = PinUpdate(userId: string, withdrawalPin: string)

  class PinForm {
    var pin: string
    var confirmPin: string
    var loading: bool
    var hasPin: bool
    var isLoading: bool

    constructor ()
      ensures pin == "" && confirmPin == "" && !loading && !hasPin && isLoading
    {
      pin, confirmPin := "", "";
      loading, hasPin, isLoading := false, false, true;
    }

    /** `checkExistingPin`: `stored` is the read of the profile's
        `withdrawal_pin` (`None` for null). A missing row counts as no PIN;
        any other read error keeps the flag. */
    method CheckExistingPin(hasUser: bool, stored: Fetch<Option<string>>)
      modifies this
      ensures !isLoading
      ensures hasPin == if !hasUser then old(hasPin)
                        else match stored
                          case Fetched(p) => p.Some? && p.value != ""
                          case FetchError(code, _) => if code == NoRowsCode then false else old(hasPin)
      ensures pin == old(pin) && confirmPin == old(confirmPin) && loading == old(loading)
    {
      if hasUser {
        match stored
        case Fetched(p) =>
          hasPin := p.Some? && p.value != "";
        case FetchError(code, _) =>
          if code == NoRowsCode {
            hasPin := false;
          }
      }
      isLoading := false;
    }

    method ChangePin(raw: string)
      modifies this
      ensures pin == SanitizePin(raw)
      ensures confirmPin == old(confirmPin) && loading == old(loading)
      ensures hasPin == old(hasPin) && isLoading == old(isLoading)
    {
      pin := SanitizePin(raw);
    }

    method ChangeConfirmPin(raw: string)
      modifies this
      ensures confirmPin == SanitizePin(raw)
      ensures pin == old(pin) && loading == old(loading)
      ensures hasPin == old(hasPin) && isLoading == old(isLoading)
    {
      confirmPin := SanitizePin(raw);
    }

    /** `handleSave`. The stored PIN is the validated one; after a
        successful save both fields are empty and a PIN exists. */
    method HandleSave(user: Option<string>, update: WriteResult)
      returns (written: Option<PinUpdate>, toast: Toast)
      modifies this
      ensures isLoading == old(isLoading)
      ensures var err := PinError(old(pin), old(confirmPin));
        && (err.Some? ==> written.None? && toast == ErrorToast(err.value) && loading == old(loading))
        && (err.None? ==> !loading)
        && (err.None? && user.None? ==> written.None? && toast == NoToast)
        && (err.None? && user.Some? ==> written == Some(PinUpdate(user.value, old(pin))))
        && (err.None? && user.Some? && update.WriteError? ==> toast == ErrorToast(SaveErrorPrefix + update.message))
        && (if err.None? && user.Some? && update.WriteOk?
            then toast == SuccessToast("Sucesso!", SavedMessage(old(hasPin)))
                 && pin == "" && confirmPin == "" && hasPin
            else pin == old(pin) && confirmPin == old(confirmPin) && hasPin == old(hasPin))
    {
      var err := PinError(pin, confirmPin);
      if err.Some? {
        return None, ErrorToast(err.value);
      }
      loading := true;
      if user.None? {
        loading := false;
        return None, NoToast;
      }
      written := Some(PinUpdate(user.value, pin));
      if update.WriteError? {
        toast := ErrorToast(SaveErrorPrefix + update.message);
        loading := false;
        return;
      }
      toast := SuccessToast("Sucesso!", SavedMessage(hasPin));
      pin := "";
      confirmPin := "";
      hasPin := true;
      loading := false;
    }
  }
}
